=== FILE: README.md ===
# JOS system calls and FlexSC, modelled in Dafny

This project models the system-call layer of a JOS exokernel extended with
FlexSC ("exception-less" system calls). The kernel state is an immutable
value:

- an environment table keyed by environment id, where each environment has
  - status and type (ordinary or FlexSC worker),
  - parent,
  - the FlexSC partner `link`,
  - priority and page-fault upcall,
  - the IPC fields (`recving`, `from`, `value`, `perm`, `dstva`),
  - a user address space;
- the running environment `curenv`;
- the physical page allocator;
- the ids `env_alloc` hands out next;
- the FlexSC syscall-page pool.

Every system call handler is a pure function from a kernel state to a
`Trans`, which pairs how control leaves the handler (`SysRet`) with the new
state:

- a return value;
- an error code;
- a switch to another environment (`sched_yield`, which never returns);
- a kernel panic;
- a handler outside the model.

Modules:

- `Base` (base.dfy): words, page geometry, permission bits, results.
- `Pmap` (pmap.dfy): the physical allocator and `page_insert`, `page_lookup` and `page_remove` over an abstract address space, plus the coded permission test.
- `ScPages` (scpages.dfy): the syscall-entry layout and `scpage_alloc`'s bounded pool.
- `Env` (env.dfy): environments, the kernel state, and the collaborators `envid2env`, `env_alloc` and `env_destroy`.
- `Flexsc` (flexsc.dfy): `scthread_spawn` and its mapping-copy loop.
- `Syscall` (syscall.dfy): every handler and the `syscall` dispatcher. The dispatcher's cases are grouped into environment, memory, IPC and FlexSC calls, one function per group.
- `Worker` (worker.dfy): the `scthread_task` step, and one pass of the worker over its page.
- `Invariant` (invariant.dfy): the kernel invariant on environment ids, kept by every handler and by the dispatcher.
- `Scenarios` (scenarios.dfy): properties that relate several calls.

## How the model is built

The model is deterministic. Failures that the C code gets from its allocators come from the state:

- `page_alloc` takes the head of a free list and fails when the list is empty.
- `page_insert` needs a page table for the virtual address's page-directory slot. When the slot has none, it allocates one, and fails with `E_NO_MEM` when no page is free.
- `env_alloc` takes the next free id and fails with `E_NO_FREE_ENV` when there is none. It then takes a page for the page directory and fails with `E_NO_MEM` when there is none.

The code is modelled as written, including where it disagrees with its own comments:

- `sys_ipc_try_send` delivers the value, records the sender and clears `recving` before it checks the page transfer. A send that then fails with `E_INVAL` or `E_NO_MEM` has still consumed the receive. The comment says the IPC happens only when no error occurs.
- `sys_ipc_recv` sets `recving` before rejecting a misaligned `dstva`.
- `sys_ipc_recv` records `dstva` only when it is below `UTOP`, so a receive that asks for no page keeps the previous address.
- The permission test `!(perm & (PTE_U|PTE_P)) || perm & ~PTE_SYSCALL` accepts `PTE_P` alone and `PTE_U` alone, although the comment requires both bits.
- `scthread_spawn` gives up with `E_INVAL` at the first page below `USTACKTOP - PGSIZE` that the parent has not mapped. Page 0 is normally unmapped, so `flexsc_register` then panics.
- The exception-stack page of a worker is mapped with the copy loop's last `perm`.
- A failed spawn leaves the half-built child allocated.
- `flexsc_register` `page_free`s the kernel's syscall-page frame when `page_insert` fails.

The kernel invariant `Env.KernelWf` says:

- the running environment is in the table;
- no environment has id 0, which names the caller;
- every entry's id field is its key;
- the ids `env_alloc` will hand out are distinct;
- none of those ids is 0, the caller, a live environment, or anyone's partner.

`scthread_spawn` copies every page below `USTACKTOP - PGSIZE`. That is 977917 pages, in page-directory slots 0 to 954. The exception stack lies in slot 954 as well. A spawn into a fresh child therefore needs `SpawnMemory` = 957 free pages: one page directory, 955 page tables and the exception stack.

## Model

| member | source | states |
|---|---|---|
| Base.ToInt32 | kern/syscall.c:614-615 | the `(envid_t)` cast of a trap-frame word: the signed 32-bit value congruent to the word modulo 2^32 |
| Pmap.PageAlloc | kern/syscall.c:250-251 | allocation fails exactly when no page is free; otherwise the head of the free list is handed out and becomes used |
| Pmap.ConsumedTakes | kern/flexsc.c:70-78 | after `n` allocations in a row (the page tables and the exception stack of a spawn) the used pages are exactly the old used pages plus the first `n` pages of the free list, and the free list has lost those `n` |
| Pmap.ConsumedTwice | kern/flexsc.c:70-78 | `a` allocations followed by `b` more leave the allocator as `a + b` allocations do, so the copy loop's and the exception stack's allocations add up |
| Pmap.PageFree | kern/syscall.c:253-255 | the freed page is back at the head of the free list and no longer used |
| Pmap.AllocThenFreeRestores | kern/syscall.c:250-255 | freeing the page just allocated restores the allocator exactly, provided free and used pages are disjoint |
| Pmap.PageLookup | kern/syscall.c:306-307 | a mapping is found exactly when the page holding the address is mapped, and it is that page's entry |
| Pmap.PageInsert | kern/syscall.c:315-316 | fails exactly when the page-directory slot of the address has no page table and no page is free; on success the slot has a table, the allocator is untouched when the table was already there, and no used page is released; when a table is allocated, it is the head of the free list and becomes used |
| Pmap.InsertLookup | kern/syscall.c:315-316 | after a successful insert the address maps the given page with `perm \| PTE_P`, and every other page keeps its mapping |
| Pmap.PageRemove | kern/syscall.c:345-346 | nothing is mapped at the address afterwards, every other page's mapping is unchanged, page tables are kept |
| Pmap.PageRemoveIdempotent | kern/syscall.c:345-346 | removing a mapping twice is the same as removing it once |
| Pmap.PermCheckIsWeaker | kern/syscall.c:214-244 | every permission the comment allows passes the coded test, and `PTE_P` alone and `PTE_U` alone pass it too, though the comment forbids them |
| Pmap.PermOkMeaning | kern/syscall.c:243-245 | the coded test accepts exactly the values with `PTE_U` or `PTE_P` set and no bit outside `PTE_SYSCALL` |
| ScPages.ScpageAlloc | kern/flexsc.c:31-47 | NULL exactly when the pool is exhausted, with the counter unchanged; otherwise the next slot is handed out with every entry zeroed (FSC_FREE), and the counter grows by one without passing the capacity |
| ScPages.AllocManyConsecutive | kern/flexsc.c:37-46 | n successive calls hand out min(n, remaining) slots, consecutive from the counter and all below the capacity; the counter ends at most at the capacity |
| ScPages.AllocManyDistinct | kern/flexsc.c:40-46 | slots handed out by successive calls are strictly increasing, hence distinct |
| Env.StatusCodeRoundTrip | kern/syscall.c:134-136 | numeric status codes and statuses correspond one to one, and only 0..4 name a status |
| Env.Envid2Env | kern/syscall.c:297-300 | id 0 names the caller; any other id resolves to itself exactly when it is in the table, not free, and (with the permission check) is the caller, its child or its partner |
| Env.EnvAlloc | kern/syscall.c:100-101 | fails exactly when no id or no page is left (E_NO_FREE_ENV first, then E_NO_MEM) and then changes nothing; otherwise the next id becomes a fresh runnable environment of the given parent and one page is consumed |
| Env.UserPageRangeOkEnds | kern/syscall.c:545 | the buffer check of `flexsc_register` passes exactly when the pages holding the first and the last byte of the page-long buffer are user pages below ULIM with `PTE_W \| PTE_U \| PTE_P` |
| Env.EnvAllocKeepsWf | kern/syscall.c:100-101 | `env_alloc` keeps the invariant; the id it hands out is in the table and no longer on the free list |
| Env.EnvDestroyKeepsWf | kern/syscall.c:67-70 | `env_destroy` keeps the invariant |
| Env.EnvDestroy | kern/syscall.c:67-70 | the environment becomes free with an empty address space; every other environment and the allocator are untouched |
| Flexsc.CopyMappings | kern/flexsc.c:64-72 | a page the parent has not mapped stops the loop at once with E_INVAL and no change; past the last page the loop returns with no error and nothing changed |
| Flexsc.CopyFrameAt | kern/flexsc.c:64-72 | an address outside the pages the loop visits keeps its mapping, whether the loop succeeds or not |
| Flexsc.CopyFrame | kern/flexsc.c:64-72 | the same for all such addresses at once |
| Flexsc.CopyHead | kern/flexsc.c:66-70 | when the loop finishes, the first page it visited maps the parent's page with the parent's low 12 bits plus `PTE_P` |
| Flexsc.CopyCopiesAt | kern/flexsc.c:64-72 | when the loop finishes, any given page of the range maps the parent's page with the parent's low 12 bits plus `PTE_P` |
| Flexsc.CopyCopies | kern/flexsc.c:64-72 | when the loop finishes, every page below `USTACKTOP - PGSIZE` from the starting page on maps the parent's page with the parent's low 12 bits plus `PTE_P` |
| Flexsc.SpawnSlots | kern/flexsc.c:64-79 | the exception stack is in the same page-directory slot as the last copied page, and a child with no page tables needs one for each of the 955 slots the loop visits |
| Flexsc.RemapKeepsMapped | kern/syscall.c:556-557 | mapping a different page at an address that was already mapped does not change which pages are mapped |
| Flexsc.CopyCompletes | kern/flexsc.c:64-72 | the loop runs to the end exactly when the parent maps every page of the rest of the range and the free list holds the page tables still missing |
| Flexsc.CopyUsesTables | kern/flexsc.c:64-72 | a loop that runs to the end consumes exactly the missing page tables, taken from the head of the free list in order, and the last slot then has its table |
| Flexsc.CopyErrors | kern/flexsc.c:65-71 | the loop fails only with E_INVAL or E_NO_MEM, and with E_INVAL only when some page of the range is unmapped in the parent |
| Flexsc.CopyLastPerm | kern/flexsc.c:69-78 | after a complete loop `perm` holds the low 12 bits of the last page's permissions, which are the bits the exception stack is mapped with |
| Flexsc.CopyKeepsUsed | kern/flexsc.c:70 | the loop never releases a physical page |
| Flexsc.StackMemory | kern/flexsc.c:76-79 | once the exception stack is mapped, the allocator has lost its first free page, and also the second when the stack's page table had to be allocated |
| Flexsc.FinishWorker | kern/flexsc.c:74-90 | succeeds exactly when a page is free for the exception stack and, if its page table is missing, one more; the stack then maps the first free page with `perm \| PTE_P`, no other page of the child moves, and the child becomes a RUNNABLE FLEX environment with the given upcall starting in the polling loop; the allocator then has lost exactly those one or two pages from the head of its free list; failure is E_NO_MEM with the child unchanged; no other environment changes |
| Flexsc.WorkerKeepsCopies | kern/flexsc.c:75-79 | mapping the exception stack does not disturb any page the copy loop shared with the parent |
| Flexsc.CopyAndFinish | kern/flexsc.c:64-90 | for a freshly allocated child, the copy loop plus the exception stack succeed exactly when the parent maps every page below `USTACKTOP - PGSIZE` and 956 pages are free; an unmapped page 0 is E_INVAL; on success the child's record is the fresh environment made a RUNNABLE FLEX worker with the parent's upcall starting in the polling loop, 956 pages leave the head of the free list, and no other environment, id or pool slot changes |
| Flexsc.CopyAndFinishSpace | kern/flexsc.c:64-79 | on success the child shares every page below the stack with the parent (same frame, the parent's low 12 bits plus `PTE_P`), maps the exception stack at the last page the copy took from the free list with the last copied page's bits, and maps nothing else at or above `USTACKTOP - PGSIZE` |
| Flexsc.ScthreadSpawn | kern/flexsc.c:52-93 | it succeeds exactly when an id is free, the caller maps every page below `USTACKTOP - PGSIZE`, and 957 pages are free; the worker takes the next free id, the table gains exactly that id and the id list loses its head; the worker's record is the fresh environment of the caller made a RUNNABLE FLEX worker with the caller's upcall, starting in the polling loop; its space shares every page below the stack, maps the exception stack at the 957th free page and nothing else above; the allocator loses exactly the first 957 free pages; no other environment changes; when allocation fails nothing changes; an unmapped page 0 is E_INVAL |
| Syscall.SysGetenvid | kern/syscall.c:43-50 | a FLEX worker reports its partner's id (a kernel fault without one), any other environment its own; nothing changes |
| Syscall.SysEnvDestroy | kern/syscall.c:57-73 | an id that does not resolve gives E_BAD_ENV with no change; otherwise the partner is freed first and then the environment, unless the partner is the caller, in which case control leaves before the environment is reached and the environment is left exactly as it was; the result is 0 unless the caller itself went; only those two environments change, and the allocator, the id list, the pool and the kernel's syscall frames are untouched |
| Syscall.SysExofork | kern/syscall.c:86-111 | succeeds exactly when an id and a page are available, and otherwise returns env_alloc's error with no change; the child is the next id, and its record is exactly the fresh environment env_alloc creates for the caller, made NOT_RUNNABLE and given the caller's registers except `%eax = 0`; the id leaves the free list, the page-directory page leaves the free list and becomes used, the syscall-page pool is untouched, and no other environment changes |
| Syscall.SysEnvSetStatus | kern/syscall.c:120-144 | a status other than RUNNABLE or NOT_RUNNABLE is E_INVAL before the id is looked at; then E_BAD_ENV; on success exactly the status field of that one environment becomes the requested status |
| Syscall.SysEnvSetPgfaultUpcall | kern/syscall.c:187-206 | E_BAD_ENV with no change for an id that does not resolve; otherwise only that environment's upcall changes; success returns 0 |
| Syscall.SysEnvSetPriority | kern/syscall.c:514-531 | a priority outside [ENV_PR_HIGHEST, ENV_PR_LOWEST] is E_INVAL before the id is looked at; then E_BAD_ENV; on success only that environment's priority changes; success returns 0 |
| Syscall.SysPageAlloc | kern/syscall.c:224-259 | the address is checked first (E_INVAL), then the permissions (E_INVAL), then the id (E_BAD_ENV); once these pass, any failure is E_NO_MEM; it succeeds exactly when these pass and memory suffices for the page and, if needed, its page table; on success the fresh page is mapped at `va` and nothing else moves; on failure no environment or free page changes; on success exactly the fresh page, and the page-table page when one was needed, leave the head of the free list and become used |
| Syscall.PageAllocFailureLeavesNoTrace | kern/syscall.c:250-256 | a failed call leaves the whole kernel state as it was: the page allocated before a failed insert is returned |
| Syscall.PageMapResolved | kern/syscall.c:301-318 | a bad address, an unmapped source, bad permissions or write access to a read-only page is E_INVAL, and a missing page table with no free page is E_NO_MEM; any failure changes nothing; success holds exactly when both addresses are user pages, the source is mapped, the permissions pass, write access is not asked of a read-only page, and page-table memory suffices; the destination then maps the source's physical page with `perm \| PTE_P`, no other page of it moves, and no other environment changes; on success the allocator is untouched when the destination slot had a page table, and otherwise loses exactly the page-table page at the head of the free list |
| Syscall.SysPageMap | kern/syscall.c:278-319 | both ids are resolved, with the permission check, before any address is looked at, so E_BAD_ENV wins over a bad address; any failure changes nothing; once both resolve the call behaves as Syscall.PageMapResolved, error codes included |
| Syscall.SysPageUnmap | kern/syscall.c:328-349 | the address is checked before the id; success does not depend on whether anything was mapped; afterwards nothing is mapped at `va`, other pages are untouched and no memory moves |
| Syscall.UnmapIdempotent | kern/syscall.c:340-348 | a second unmap of the same address returns the same result and changes nothing |
| Syscall.AllocThenUnmapTwice | kern/syscall.c:345-348 | after a successful page allocation, two unmaps both return 0, the second changes nothing, and the address is left unmapped |
| Syscall.SysIpcTrySend | kern/syscall.c:389-438 | E_BAD_ENV and E_IPC_NOT_RECV change nothing. For a receiving target, the send succeeds exactly when no page is to move, or when the offered page passes every check and a page table can be had. A failure is E_INVAL when the offered page is rejected and E_NO_MEM otherwise, and leaves the value delivered and `recving` cleared, with nothing else changed. Success makes the target runnable, with the page at its `dstva` being the sender's page with `perm \| PTE_P`. Success returns 0. No path touches the id list or the syscall-page pool, and a page transfer consumes only the page-table page it may need |
| Syscall.SysIpcRecv | kern/syscall.c:451-481 | a FLEX caller parks its partner (`recving`, NOT_RUNNABLE) and gets E_BLOCKED, with no change to itself; otherwise the caller is left receiving even on E_INVAL; on success control leaves and the caller's record is exactly the old one with `recving` set, `dstva` recorded only when below UTOP, `%eax = 0` and NOT_RUNNABLE; the allocator, the id list, the pool and the kernel's syscall frames are untouched |
| Syscall.LinkPartners | kern/syscall.c:564-571 | the caller and the worker both record the syscall page and each links to the other; nothing else changes |
| Syscall.SpawnAndLink | kern/syscall.c:559-573 | a failed spawn is a panic, and the spawn succeeds exactly under Flexsc.ScthreadSpawn's condition; on success the table gains exactly the next free id; the caller's record is the old one with the syscall page and a link to the worker; the worker is the caller's fresh RUNNABLE FLEX worker with the caller's upcall, starting in the polling loop, holding the same page and linked back; it shares the caller's pages below the stack and has its own exception stack; third environments are unchanged, the id list loses its head and the allocator its first 957 free pages |
| Syscall.MapAndSpawn | kern/syscall.c:553-573 | the insert of the syscall page and the spawn: a failed insert is E_NO_MEM with the frame pushed back on the free list and nothing else changed; otherwise it returns 0 exactly when an id is free, the caller maps every page below `USTACKTOP - PGSIZE` (the insert only remaps an already mapped `va`), and 957 pages remain after `va`'s page table |
| Syscall.MapAndSpawnKeys | kern/syscall.c:559-564 | on success the table gains exactly the worker's id |
| Syscall.MapAndSpawnCaller | kern/syscall.c:553-571 | on success the caller's record is the old one with only its space, syscall page and link to the worker changed |
| Syscall.MapAndSpawnMapping | kern/syscall.c:553-557 | on success the caller's space maps the syscall frame at `va` with `PTE_W \| PTE_U \| PTE_P`, and every other page of the caller keeps its mapping |
| Syscall.MapAndSpawnWorker | kern/syscall.c:559-571 | on success the worker is the caller's fresh RUNNABLE FLEX worker with the caller's upcall, the syscall page and a link back; no third environment changes and the id list loses its head |
| Syscall.MapAndSpawnMemory | kern/syscall.c:553-560 | on success the allocator has lost exactly its first 957 free pages, or 958 when `va` needed a page table |
| Syscall.MapAndSpawnSpace | kern/syscall.c:559-560 | on success the worker shares every page below the stack with the caller's new space and maps its exception stack at the last page it took from the free list |
| Syscall.FlexscRegister | kern/syscall.c:537-574 | a bad buffer destroys the caller; an exhausted pool panics with no change; the pool never passes its capacity; it returns 0 exactly when the buffer is good, a pool slot with a frame remains, an id is free, the caller maps every page below `USTACKTOP - PGSIZE`, and 957 free pages remain after the buffer's page table; on success the pool advances by one slot; the caller's record changes only in its space, syscall page and link, and its space only at `va`, which maps the slot's frame writable; the worker is the caller's fresh RUNNABLE FLEX worker with the same page, linked back and sharing the caller's pages below the stack; third environments are unchanged, the id list loses its head, and the allocator loses its first 957 pages, or 958 when `va` needed a page table; a pool slot with no kernel frame is E_INVAL with the slot already consumed and nothing else changed; a failed `page_insert` is E_NO_MEM with the slot consumed and the kernel frame pushed back on the free list |
| Syscall.FlexscWait | kern/syscall.c:580-591 | with a partner: the partner becomes runnable, the caller NOT_RUNNABLE, control leaves, nothing else changes; without one the kernel faults |
| Syscall.SysnoRoundTrip | kern/syscall.c:603-667 | each system call has one number and each number at most one call; numbers from 20 on name none |
| Syscall.DispatchEnv | kern/syscall.c:611-628 | each environment call (with `sys_env_set_priority` at lines 645-647) reaches its own handler with the arguments cast as in C; `sys_yield` leaves with the state unchanged; none switches `curenv` or forgets an environment |
| Syscall.DispatchMem | kern/syscall.c:629-638 | each memory call reaches its own handler with the arguments cast as in C; none switches `curenv` or forgets an environment |
| Syscall.DispatchIpc | kern/syscall.c:639-644 | each IPC call reaches its own handler with the arguments cast as in C; none switches `curenv`, and the same environments remain |
| Syscall.DispatchFlex | kern/syscall.c:660-665 | each FlexSC call reaches its own handler; none switches `curenv` or forgets an environment |
| Syscall.Dispatch | kern/syscall.c:595-671 | an unknown number is E_INVAL with no change; every modelled call number reaches its own handler with the C casts applied; yield and the left-out device calls leave the state unchanged; no call switches `curenv` or forgets an environment |
| Worker.WorkerStep | kern/flexsc.c:100-106 | a SUBMITTED entry is dispatched and ends DONE holding the handler's result, or BUSY if control did not come back; any other entry, and every other entry of the page, is unchanged |
| Worker.StepNeverRegresses | kern/flexsc.c:101-105 | a step writes only BUSY or DONE, only to the entry it visits, so no entry's status ever moves backwards |
| Worker.WorkerServesGetenvid | kern/flexsc.c:101-105 | a worker serving a getenvid entry writes back DONE with its partner's id, the id the process would get by asking itself |
| Worker.WorkerPass | kern/flexsc.c:96-109 | one pass in entry order with no wrap-around: entries before the stop point are served, the stop entry (if any) is left BUSY, later entries are untouched, and a complete pass leaves no entry SUBMITTED; the kernel state and page it ends with are exactly those of Worker.PassFrom, which threads the state through each dispatched handler in turn |
| Worker.PassEndsServed | kern/flexsc.c:96-109 | a page left with served entries before the stop point, the SUBMITTED stop entry turned BUSY and later entries untouched has no entry moved backwards, and after a full pass none is still SUBMITTED |
| Worker.PassSkipsIdle | kern/flexsc.c:100-107 | a pass over entries that are not SUBMITTED runs to the end and changes neither the kernel nor the page |
| Worker.PassServesOne | kern/flexsc.c:96-109 | on a page holding one request, the pass dispatches it on the kernel it was given and ends in the state that handler left: DONE with the handler's result and the pass runs to the end if it returned, BUSY and the pass stops there if not |
| Invariant.SysEnvDestroyKeepsWf | kern/syscall.c:57-73 | `sys_env_destroy` keeps the kernel invariant |
| Invariant.SysExoforkKeepsWf | kern/syscall.c:86-111 | `sys_exofork` keeps the kernel invariant |
| Invariant.SysEnvSetStatusKeepsWf | kern/syscall.c:120-144 | `sys_env_set_status` keeps the kernel invariant |
| Invariant.SysEnvSetPgfaultUpcallKeepsWf | kern/syscall.c:187-206 | `sys_env_set_pgfault_upcall` keeps the kernel invariant |
| Invariant.SysEnvSetPriorityKeepsWf | kern/syscall.c:514-531 | `sys_env_set_priority` keeps the kernel invariant |
| Invariant.SysPageAllocKeepsWf | kern/syscall.c:224-259 | `sys_page_alloc` keeps the kernel invariant |
| Invariant.PageMapResolvedKeepsWf | kern/syscall.c:301-318 | mapping into a destination that is not on the free list keeps the kernel invariant |
| Invariant.SysPageMapKeepsWf | kern/syscall.c:278-319 | `sys_page_map` keeps the kernel invariant |
| Invariant.SysPageUnmapKeepsWf | kern/syscall.c:328-349 | `sys_page_unmap` keeps the kernel invariant |
| Invariant.SysIpcTrySendKeepsWf | kern/syscall.c:389-438 | `sys_ipc_try_send` keeps the kernel invariant, whether it succeeds or fails |
| Invariant.SysIpcRecvKeepsWf | kern/syscall.c:451-481 | `sys_ipc_recv` keeps the kernel invariant |
| Invariant.ScthreadSpawnKeepsWf | kern/flexsc.c:52-93 | `scthread_spawn` keeps the kernel invariant, and a spawned worker's id is no longer on the free list |
| Invariant.LinkPartnersKeepsWf | kern/syscall.c:564-571 | linking the caller with a worker that is not on the free list keeps the kernel invariant |
| Invariant.SpawnAndLinkKeepsWf | kern/syscall.c:559-573 | spawning and linking the worker keeps the kernel invariant |
| Invariant.FlexscRegisterKeepsWf | kern/syscall.c:537-574 | `flexsc_register` keeps the kernel invariant on every path that returns |
| Invariant.FlexscWaitKeepsWf | kern/syscall.c:580-591 | `flexsc_wait` keeps the kernel invariant |
| Invariant.DispatchKeepsWf | kern/syscall.c:595-671 | every system call number, known or not, keeps the kernel invariant |
| Scenarios.ExoforkThenSetRunnable | kern/syscall.c:86-144 | after `sys_exofork` the child's id was unclaimed (not 0, not the caller, not live, nobody's partner); the parent may then set it RUNNABLE, which returns 0 and changes only the child's status; the child holds the parent's registers with `%eax = 0` |
| Scenarios.RecvThenSendDelivers | kern/syscall.c:405-432 | a receive at a page followed by a valid send from another environment succeeds; the receiver is runnable with the sender's id, value and permissions, and its `dstva` maps the same physical page as the sender's `srcva` |
| Scenarios.RecvAboveUtopKeepsPreviousDstva | kern/syscall.c:465-471 | a receive with `dstva >= UTOP` keeps the earlier address: a later send that offers a page maps it there if that address is below UTOP, and otherwise delivers the value alone with permissions 0 |
| Scenarios.FailedSendConsumesReceive | kern/syscall.c:405-429 | a send that fails after the receiving check has cleared `recving`, so the next send to the same target gets E_IPC_NOT_RECV |
| Scenarios.DestroyFreesPair | kern/syscall.c:63-72 | destroying an environment with a partner, when neither is the caller, returns 0, and afterwards neither id resolves |
| Scenarios.RegisterMakesPartners | kern/syscall.c:568-587 | after registration the worker reports the caller's id, a receive by the worker parks the caller, and `flexsc_wait` by the caller wakes the worker and puts the caller to sleep |
| Scenarios.RegisterPanicsWithoutPageZero | kern/flexsc.c:65-68 | a caller whose page 0 is unmapped cannot register: the spawn stops at page 0 and the kernel panics, even when buffer, pool, ids and memory would all suffice |

## Left out

- The console, clock, network and trap-frame handlers (`sys_cputs`, `sys_cgetc`, `sys_time_msec`, `sys_net_send_pckt`, `sys_net_recv_pckt`, `sys_env_set_trapframe`) are device or register-file plumbing. The dispatcher returns `Delegated` for them with the state unchanged, including `sys_cputs`'s `user_mem_assert`.
- The network driver (kern/e1000.h) is memory-mapped hardware and is not part of this model.
- `sys_yield` and `sched_yield` appear only as "control leaves the handler" (`Switched`). Scheduling itself is not modelled.
- The raw stack write at kern/flexsc.c:88 is not modelled; it stores the page pointer below the worker's stack.
- Page contents are not modelled. This covers zero-filling, and the cast of `*ptEntry` through a non-pointer `pte_t` in kern/flexsc.c.
- `flexsc_init` does not compile, and `test_flex` is an endless print loop. Neither is part of this model.
- `scthread_spawn` is called with one argument but declared with two. The model takes the one-argument reading; the page argument is used only by the left-out stack write.
- The worker loop's concurrency with the process, and its wrap-around, are not modelled. The C pointer walks off the page after NSCENTRIES entries. `Worker.WorkerPass` models one pass.
- kern/env.c, kern/pmap.c, kern/sched.c, inc/env.h, inc/syscall.h and inc/error.h are not part of this model. The collaborators get the contracts their callers rely on:
  - `envid2env` follows the usual JOS rule, extended to the FlexSC partner;
  - `env_destroy` frees the environment and drops its user mappings;
  - `user_mem_assert` checks every page the buffer touches.
- Env.EnvDestroy: does not model `env_free` returning the slot to `env_free_list`, or freeing the page directory and page tables. The freed id is not put back on the list of ids `env_alloc` hands out, and the pages stay used. It also does not scrub links other environments hold to the freed one. It also does not model the multiprocessor case, where an environment running on another CPU becomes DYING.
- Pmap.PageRemove: page reference counts are not modelled, so removing or replacing a mapping never returns a page to the free list.
- Syscall.FlexscWait: `scthread_run` is not shown. It is modelled as making the partner runnable, without running it at once.
- Syscall.SysnoRoundTrip: the numbering follows the order of the JOS syscall enumeration with the later calls appended, because inc/syscall.h is not shown.
- Base.SysRet: error codes are symbolic, because the numeric values in inc/error.h are not shown.
- Env.PrHighest: the priority bounds (0 to 4, default 2) stand in for the values in inc/env.h, which are not shown.
- ScPages.ScpageAlloc: a zeroed entry is taken to be FSC_FREE, so `FSC_FREE` is assumed to be 0; its value is not shown.
- ScPages.ScpageAlloc: the loop at kern/flexsc.c:41-44 writes `entry->status` through the page's first entry on every iteration, not through `entry + i`. Since that store writes FSC_FREE over a zeroed entry, it changes nothing when FSC_FREE is 0, and the model has every entry zeroed.
- The pool size NSCPAGES and the page length NSCENTRIES are fields of the pool rather than constants, since their values are not shown.
- Panics and NULL dereferences (`Panicked`) end the model's view of the system. Nothing is said about the state after them.

=== FILE: base.dfy ===
/** Machine words, page geometry, page-table permission bits and the
    result vocabulary shared by every part of the kernel model. */
module Base {

  /** A 32-bit machine word as the trap frame delivers it. */
  type u32 = x: int | 0 <= x < 0x1_0000_0000

  /** Environment ids are signed 32-bit values; 0 names the caller. */
  type EnvId = int

  /** A physical page, named by its page number. */
  type PageId = nat

  const PGSIZE: nat := 4096
  /** Bytes mapped by one page table (one page-directory slot). */
  const PTSIZE: nat := 1024 * PGSIZE
  /** Top of user-mappable memory. */
  const UTOP: nat := 0xEEC0_0000
  /** Top of memory a user environment may read. */
  const ULIM: nat := 0xEF80_0000
  /** Top of the one-page user exception stack. */
  const UXSTACKTOP: nat := UTOP
  /** Top of the normal user stack (one guard page below the exception stack). */
  const USTACKTOP: nat := UTOP - 2 * PGSIZE

  const PTE_P: bv32 := 0x001
  const PTE_W: bv32 := 0x002
  const PTE_U: bv32 := 0x004
  const PTE_AVAIL: bv32 := 0xE00
  /** The only bits a system call may put in a mapping's permissions. */
  const PTE_SYSCALL: bv32 := PTE_AVAIL | PTE_P | PTE_W | PTE_U

  datatype Option<+T> = None | Some(value: T)

  /** The error codes the handlers return (negated in the machine ABI). */
  datatype Error =
    | BadEnv      // E_BAD_ENV
    | Inval       // E_INVAL
    | NoMem       // E_NO_MEM
    | IpcNotRecv  // E_IPC_NOT_RECV
    | NoFreeEnv   // E_NO_FREE_ENV
    | Blocked     // E_BLOCKED: a FlexSC receive parked the partner

  /** How control leaves a system call handler. */
  datatype SysRet =
    | Ok(value: int)    // returns a non-negative value to the caller
    | Err(error: Error) // returns a negative error code to the caller
    | Switched          // sched_yield: the handler never returns to its caller
    | Panicked          // the kernel halts (panic or a NULL dereference)
    | Delegated         // console, clock, network or trap-frame handler outside this model

  /** The C cast of an unsigned word to a signed 32-bit int. */
  function ToInt32(x: u32): (r: int)
    ensures -0x8000_0000 <= r < 0x8000_0000
    ensures r % 0x1_0000_0000 == x
  {
    if x < 0x8000_0000 then x else x - 0x1_0000_0000
  }

  /** `va & 0xFFF` is zero. */
  predicate Aligned(va: nat) {
    va % PGSIZE == 0
  }

  /** The page-aligned address of the page holding `va`. */
  function PageBase(va: nat): (r: nat)
    ensures Aligned(r) && r <= va < r + PGSIZE
  {
    va - va % PGSIZE
  }

  /** The page-directory slot covering `va`. */
  function Pdx(va: nat): nat {
    va / PTSIZE
  }

  /** The address of page number `pn` (`pn * PGSIZE`). */
  function PageVa(pn: nat): (r: nat)
    ensures Aligned(r)
  {
    pn * PGSIZE
  }
}

=== FILE: env.dfy ===
/** The environment table and the kernel state the system calls act on,
    with the environment collaborators the handlers call: envid2env,
    env_alloc and env_destroy. */
module Env {
  import opened Base
  import opened Pmap
  import opened ScPages

  datatype EnvStatus = Free | Dying | Runnable | Running | NotRunnable

  /** The numeric value of each status in the system-call ABI. */
  function StatusCode(s: EnvStatus): int {
    match s
    case Free => 0
    case Dying => 1
    case Runnable => 2
    case Running => 3
    case NotRunnable => 4
  }

  /** The status a numeric argument names, if any. */
  function StatusOf(code: int): (r: Option<EnvStatus>)
    ensures r.Some? ==> StatusCode(r.value) == code
  {
    if code == 0 then Some(Free)
    else if code == 1 then Some(Dying)
    else if code == 2 then Some(Runnable)
    else if code == 3 then Some(Running)
    else if code == 4 then Some(NotRunnable)
    else None
  }

  /** Status codes and statuses correspond one to one. */
  lemma StatusCodeRoundTrip(s: EnvStatus, code: int)
    ensures StatusOf(StatusCode(s)) == Some(s)
    ensures StatusOf(code).None? <==> !(0 <= code < 5)
  {
  }

  /** An ordinary environment, or a FlexSC worker serving its partner. */
  datatype EnvType = Normal | Flex

  /** Where an environment resumes: user code, or the worker's polling loop. */
  datatype Eip = UserPc(pc: u32) | ScthreadTask

  /** The part of the saved register set the handlers touch. */
  datatype Trapframe = Trapframe(eax: int, eip: Eip, esp: u32)

  /** Scheduling priorities: smaller is more urgent. */
  const PrHighest: int := 0
  const PrLowest: int := 4
  const PrDefault: int := 2

  datatype Env = Env(
    id: EnvId,
    parent: EnvId,
    status: EnvStatus,
    etype: EnvType,
    link: Option<EnvId>,      // the FlexSC partner, if any
    priority: int,
    upcall: u32,              // page-fault upcall entry point
    tf: Trapframe,
    ipcRecving: bool,
    ipcFrom: EnvId,
    ipcValue: u32,
    ipcPerm: bv32,
    ipcDstva: u32,
    space: AddrSpace,
    scpage: Option<nat>       // slot of the registered syscall page
  )

  /** The whole kernel state: the environment table keyed by id, the running
      environment, the ids env_alloc will hand out next, physical memory, the
      syscall-page pool, and the physical page behind each pool slot in the
      kernel's own page directory. */
  datatype Kernel = Kernel(
    envs: map<EnvId, Env>,
    cur: EnvId,
    envFree: seq<EnvId>,
    phys: Phys,
    scpool: ScPool,
    scFrames: map<nat, PageId>
  )

  /** A system call runs on behalf of an environment in the table. */
  predicate CurValid(k: Kernel) {
    k.cur in k.envs
  }

  /** curenv. */
  function Cur(k: Kernel): Env
    requires CurValid(k)
  {
    k.envs[k.cur]
  }

  function SetEnv(k: Kernel, id: EnvId, e: Env): (r: Kernel)
    ensures r.envs.Keys == k.envs.Keys + {id} && r.envs[id] == e
    ensures forall x :: x in k.envs && x != id ==> r.envs[x] == k.envs[x]
    ensures r.cur == k.cur && r.phys == k.phys && r.envFree == k.envFree
    ensures r.scpool == k.scpool && r.scFrames == k.scFrames
  {
    k.(envs := k.envs[id := e])
  }

  /** An id env_alloc may still hand out: not 0, not the running
      environment, free or absent from the table, and nobody's partner. */
  predicate Unclaimed(k: Kernel, id: EnvId) {
    && id != 0 && id != k.cur
    && (id in k.envs ==> k.envs[id].status == Free)
    && (forall x :: x in k.envs ==> k.envs[x].link != Some(id))
  }

  /** The kernel's invariant on environment ids: the running environment is
      in the table, no environment has id 0 (which names the caller), every
      entry's id field is its key, and the ids env_alloc will hand out are
      distinct and unclaimed. */
  predicate KernelWf(k: Kernel) {
    && CurValid(k)
    && 0 !in k.envs
    && (forall x :: x in k.envs ==> k.envs[x].id == x)
    && (forall i, j :: 0 <= i < j < |k.envFree| ==> k.envFree[i] != k.envFree[j])
    && (forall i :: 0 <= i < |k.envFree| ==> Unclaimed(k, k.envFree[i]))
  }

  /** Replacing one environment keeps the invariant when the entry keeps its
      id, does not bring an id env_alloc will hand out to life, and does not
      link to one. */
  lemma SetEnvWf(k: Kernel, x: EnvId, e: Env)
    requires KernelWf(k) && x in k.envs && e.id == x
    requires e.status != Free ==> x !in k.envFree
    requires e.link.Some? ==> e.link.value !in k.envFree
    ensures KernelWf(SetEnv(k, x, e))
  {
    var k' := SetEnv(k, x, e);
    forall i | 0 <= i < |k'.envFree|
      ensures Unclaimed(k', k'.envFree[i])
    {
      assert Unclaimed(k, k.envFree[i]);
    }
  }

  /** May the running environment act on `target`? Itself, a child it
      created, or its FlexSC partner. */
  predicate MayModify(k: Kernel, target: EnvId)
    requires CurValid(k)
    requires target in k.envs
  {
    target == k.cur || k.envs[target].parent == k.cur || Cur(k).link == Some(target)
  }

  /** envid2env: resolve an id; 0 names the caller. A free or unknown id is
      E_BAD_ENV, and so is an id the caller may not modify when `checkperm`. */
  function Envid2Env(k: Kernel, envid: EnvId, checkperm: bool): (r: Option<EnvId>)
    requires CurValid(k)
    ensures envid == 0 ==> r == Some(k.cur)
    ensures envid != 0 ==>
      (r.Some? <==> envid in k.envs && k.envs[envid].status != Free
                    && (checkperm ==> MayModify(k, envid)))
    ensures r.Some? ==> r.value in k.envs
    ensures envid != 0 && r.Some? ==> r.value == envid
  {
    if envid == 0 then Some(k.cur)
    else if envid !in k.envs || k.envs[envid].status == Free then None
    else if checkperm && !MayModify(k, envid) then None
    else Some(envid)
  }

  /** A freshly allocated environment: runnable, ordinary, unlinked, with an
      empty user address space and a zeroed register set. */
  function NewEnv(id: EnvId, parent: EnvId): Env {
    Env(id, parent, Runnable, Normal, None, PrDefault, 0, Trapframe(0, UserPc(0), USTACKTOP),
        false, 0, 0, 0, 0, EmptySpace, None)
  }

  datatype Alloc = Allocated(k: Kernel, id: EnvId) | AllocFailed(error: Error)

  /** env_alloc: take the next free id (E_NO_FREE_ENV when none) and a page
      for its page directory (E_NO_MEM when none). Failure changes nothing. */
  function EnvAlloc(k: Kernel, parent: EnvId): (r: Alloc)
    ensures r.AllocFailed? <==> |k.envFree| == 0 || |k.phys.free| == 0
    ensures r.AllocFailed? ==> r.error == (if |k.envFree| == 0 then NoFreeEnv else NoMem)
    ensures r.Allocated? ==>
      && r.id == k.envFree[0]
      && r.k.envs == k.envs[r.id := NewEnv(r.id, parent)]
      && r.k.envFree == k.envFree[1..]
      && r.k.phys.used == k.phys.used + {k.phys.free[0]}
      && r.k.phys.free == k.phys.free[1..]
      && r.k.cur == k.cur && r.k.scpool == k.scpool && r.k.scFrames == k.scFrames
  {
    if |k.envFree| == 0 then AllocFailed(NoFreeEnv)
    else match PageAlloc(k.phys)
      case None => AllocFailed(NoMem)
      case Some((pgdir, m)) =>
        var id := k.envFree[0];
        Allocated(k.(envs := k.envs[id := NewEnv(id, parent)], envFree := k.envFree[1..], phys := m), id)
  }

  /** env_alloc keeps the invariant, and the id it hands out is no longer
      on the list. */
  lemma EnvAllocKeepsWf(k: Kernel, parent: EnvId)
    requires KernelWf(k)
    ensures var r := EnvAlloc(k, parent);
      r.Allocated? ==> KernelWf(r.k) && r.id !in r.k.envFree && r.id in r.k.envs
  {
    var r := EnvAlloc(k, parent);
    if r.Allocated? {
      forall i | 0 <= i < |r.k.envFree|
        ensures Unclaimed(r.k, r.k.envFree[i])
      {
        assert r.k.envFree[i] == k.envFree[i + 1];
        assert Unclaimed(k, k.envFree[i + 1]);
      }
    }
  }

  /** env_destroy: the environment is freed and loses its user mappings;
      every other environment is untouched. */
  function EnvDestroy(k: Kernel, id: EnvId): (r: Kernel)
    ensures r.envs.Keys == k.envs.Keys
    ensures id in k.envs ==> r.envs[id].status == Free && r.envs[id].space == EmptySpace
    ensures forall x :: x in k.envs && x != id ==> r.envs[x] == k.envs[x]
    ensures r.cur == k.cur && r.phys == k.phys && r.envFree == k.envFree
    ensures r.scpool == k.scpool && r.scFrames == k.scFrames
  {
    if id in k.envs then SetEnv(k, id, k.envs[id].(status := Free, space := EmptySpace)) else k
  }

  /** The page at `p` lies below ULIM and is mapped with at least
      `perm | PTE_P`. */
  predicate UserPageOk(s: AddrSpace, p: nat, perm: bv32) {
    p < ULIM && PageLookup(s, p).Some? && (PageLookup(s, p).value.perm & (perm | PTE_P)) == perm | PTE_P
  }

  /** env_destroy keeps the invariant: it frees, and changes no id or link. */
  lemma EnvDestroyKeepsWf(k: Kernel, id: EnvId)
    requires KernelWf(k)
    ensures KernelWf(EnvDestroy(k, id))
  {
    if id in k.envs {
      SetEnvWf(k, id, k.envs[id].(status := Free, space := EmptySpace));
    }
  }

  /** user_mem_assert for one page-long buffer: every page it touches (one
      when `va` is page-aligned, two otherwise) passes UserPageOk. */
  predicate UserPageRangeOk(s: AddrSpace, va: nat, perm: bv32) {
    UserPageOk(s, PageBase(va), perm) && (!Aligned(va) ==> UserPageOk(s, PageBase(va) + PGSIZE, perm))
  }

  /** The page-aligned address `b` is the page base of every byte of its page. */
  lemma PageBaseOf(b: nat, a: nat)
    requires Aligned(b) && b <= a < b + PGSIZE
    ensures PageBase(a) == b
  {
  }

  /** A buffer passes user_mem_assert exactly when the pages holding its
      first and its last byte both pass. */
  lemma UserPageRangeOkEnds(s: AddrSpace, va: nat, perm: bv32)
    ensures UserPageRangeOk(s, va, perm) <==>
      UserPageOk(s, PageBase(va), perm) && UserPageOk(s, PageBase(va + PGSIZE - 1), perm)
  {
    var b := PageBase(va);
    if Aligned(va) {
      PageBaseOf(b, va + PGSIZE - 1);
    } else {
      PageBaseOf(b + PGSIZE, va + PGSIZE - 1);
    }
  }
}

=== FILE: flexsc.dfy ===
/** scthread_spawn: creating a FlexSC worker that shares its parent's
    address space below the user stack. */
module Flexsc {
  import opened Base
  import opened Pmap
  import opened Env

  /** PGNUM(USTACKTOP - PGSIZE): the spawn loop copies pages 0 .. SpawnPages-1. */
  const SpawnPages: nat := (USTACKTOP - PGSIZE) / PGSIZE

  /** Where the worker's exception stack is mapped. */
  const XStackVa: nat := UXSTACKTOP - PGSIZE

  /** The page-directory slot of the last page the loop copies. */
  const LastSlot: nat := Pdx(PageVa(SpawnPages - 1))

  /** Pages a spawn consumes when the parent maps every page of the range:
      the child's page directory, a page table for each slot 0 .. LastSlot,
      and the exception stack (whose slot is LastSlot). */
  const SpawnMemory: nat := LastSlot + 3

  /** Page `pn` lies in page-directory slot pn / 1024. */
  lemma SlotOfPage(pn: nat)
    ensures Pdx(PageVa(pn)) == pn / 1024
  {
    var q, r := pn / 1024, pn % 1024;
    assert pn * PGSIZE == q * PTSIZE + r * PGSIZE;
  }

  /** Inside the range the slot grows with the page number, by at most one
      from a page to the next, and never passes LastSlot. */
  lemma SlotStep(pn: nat)
    requires pn < SpawnPages
    ensures Pdx(PageVa(pn)) <= LastSlot
    ensures pn + 1 < SpawnPages ==>
      Pdx(PageVa(pn + 1)) == Pdx(PageVa(pn)) || Pdx(PageVa(pn + 1)) == Pdx(PageVa(pn)) + 1
  {
    SlotOfPage(pn);
    SlotOfPage(pn + 1);
    SlotOfPage(SpawnPages - 1);
  }

  /** The exception stack shares the last copied page's slot, and a child
      with no page tables yet needs one for each slot 0 .. LastSlot. */
  lemma SpawnSlots()
    ensures Pdx(XStackVa) == LastSlot
    ensures TablesNeeded(EmptySpace, 0) == LastSlot + 1 == SpawnMemory - 2
  {
    SlotOfPage(SpawnPages - 1);
    SlotOfPage(0);
  }

  /** Page `q` of the copied range is its own page base, the next page starts
      one page later, and the whole range lies below the exception stack. */
  lemma CopyRange(q: nat)
    requires q < SpawnPages
    ensures PageBase(PageVa(q)) == PageVa(q)
    ensures PageVa(q + 1) == PageVa(q) + PGSIZE
    ensures PageVa(q) < PageVa(SpawnPages) <= XStackVa
    ensures PageBase(XStackVa) == XStackVa
  {
  }

  /** The worker's mapping of page `pn` is the parent's page with the
      parent's low twelve permission bits (and PTE_P, which page_insert adds). */
  predicate Copied(parent: AddrSpace, child: AddrSpace, pn: nat) {
    var va := PageVa(pn);
    && PageLookup(parent, va).Some?
    && PageLookup(child, va)
       == Some(Pte(PageLookup(parent, va).value.page, Present(PteFlags(PageLookup(parent, va).value.perm))))
  }

  /** The parent maps page `pn`. */
  predicate Mapped(parent: AddrSpace, pn: nat) {
    PageLookup(parent, PageVa(pn)).Some?
  }

  /** Mapping a page over an address that was already mapped leaves the set
      of mapped pages as it was. */
  lemma RemapKeepsMapped(s: AddrSpace, s': AddrSpace, va: nat)
    requires PageLookup(s, va).Some? && PageLookup(s', va).Some?
    requires forall a :: PageBase(a) != PageBase(va) ==> PageLookup(s', a) == PageLookup(s, a)
    ensures forall q :: Mapped(s', q) <==> Mapped(s, q)
  {
    forall q
      ensures Mapped(s', q) <==> Mapped(s, q)
    {
      if PageBase(PageVa(q)) != PageBase(va) {
        assert PageLookup(s', PageVa(q)) == PageLookup(s, PageVa(q));
      }
    }
  }

  /** Every page the spawn loop covers is shared with the parent. */
  predicate SharesBelowStack(parent: AddrSpace, child: AddrSpace) {
    forall q :: 0 <= q < SpawnPages ==> Copied(parent, child, q)
  }

  /** State of the copy loop when it stops: the allocator, the child's
      address space, the error that stopped it (None when it ran to the
      end), and the last value of its `perm` variable. */
  datatype Copy = Copy(m: Phys, s: AddrSpace, err: Option<Error>, perm: bv32)

  /** The copy loop of scthread_spawn from page `pn` on: each page must be
      mapped in the parent (E_INVAL otherwise, at once) and is inserted into
      the child (E_NO_MEM when a page table cannot be allocated). */
  function CopyMappings(m: Phys, parent: AddrSpace, child: AddrSpace, pn: nat, perm: bv32): (r: Copy)
    ensures pn < SpawnPages && PageLookup(parent, PageVa(pn)).None? ==>
      r.err == Some(Inval) && r.s == child && r.m == m
    ensures pn >= SpawnPages ==> r == Copy(m, child, None, perm)
    decreases SpawnPages - pn
  {
    if pn >= SpawnPages then Copy(m, child, None, perm)
    else
      var va := PageVa(pn);
      match PageLookup(parent, va)
      case None => Copy(m, child, Some(Inval), perm)
      case Some(pte) =>
        var p := PteFlags(pte.perm);
        match PageInsert(m, child, va, pte.page, p)
        case InsertNoMem => Copy(m, child, Some(NoMem), p)
        case Inserted(m', s') => CopyMappings(m', parent, s', pn + 1, p)
  }

  /** An address outside the pages the loop visits from `pn` on keeps its
      mapping, whatever happens. */
  lemma {:induction false} CopyFrameAt(m: Phys, parent: AddrSpace, child: AddrSpace, pn: nat, perm: bv32, a: nat)
    requires PageBase(a) < PageVa(pn) || PageBase(a) >= PageVa(SpawnPages)
    ensures PageLookup(CopyMappings(m, parent, child, pn, perm).s, a) == PageLookup(child, a)
    decreases SpawnPages - pn
  {
    if pn < SpawnPages && PageLookup(parent, PageVa(pn)).Some? {
      var pte := PageLookup(parent, PageVa(pn)).value;
      var ins := PageInsert(m, child, PageVa(pn), pte.page, PteFlags(pte.perm));
      if ins.Inserted? {
        CopyRange(pn);
        InsertLookup(m, child, PageVa(pn), pte.page, PteFlags(pte.perm));
        CopyFrameAt(ins.m, parent, ins.s, pn + 1, PteFlags(pte.perm), a);
      }
    }
  }

  /** The same for every address at once. */
  lemma CopyFrame(m: Phys, parent: AddrSpace, child: AddrSpace, pn: nat, perm: bv32)
    ensures var r := CopyMappings(m, parent, child, pn, perm);
      forall a :: PageBase(a) < PageVa(pn) || PageBase(a) >= PageVa(SpawnPages) ==>
        PageLookup(r.s, a) == PageLookup(child, a)
  {
    forall a | PageBase(a) < PageVa(pn) || PageBase(a) >= PageVa(SpawnPages)
      ensures PageLookup(CopyMappings(m, parent, child, pn, perm).s, a) == PageLookup(child, a)
    {
      CopyFrameAt(m, parent, child, pn, perm, a);
    }
  }

  /** When the loop runs to the end, page `pn` itself is copied. */
  lemma CopyHead(m: Phys, parent: AddrSpace, child: AddrSpace, pn: nat, perm: bv32)
    requires pn < SpawnPages
    ensures var r := CopyMappings(m, parent, child, pn, perm);
      r.err.None? ==> Copied(parent, r.s, pn)
  {
    if PageLookup(parent, PageVa(pn)).Some? {
      var pte := PageLookup(parent, PageVa(pn)).value;
      var ins := PageInsert(m, child, PageVa(pn), pte.page, PteFlags(pte.perm));
      if ins.Inserted? {
        CopyRange(pn);
        InsertLookup(m, child, PageVa(pn), pte.page, PteFlags(pte.perm));
        CopyFrameAt(ins.m, parent, ins.s, pn + 1, PteFlags(pte.perm), PageVa(pn));
      }
    }
  }

  /** When the loop runs to the end, page `q` (anywhere from `pn` on) is
      copied. */
  lemma {:induction false} CopyCopiesAt(m: Phys, parent: AddrSpace, child: AddrSpace, pn: nat, perm: bv32, q: nat)
    requires pn <= q < SpawnPages
    ensures var r := CopyMappings(m, parent, child, pn, perm);
      r.err.None? ==> Copied(parent, r.s, q)
    decreases SpawnPages - pn
  {
    if q == pn {
      CopyHead(m, parent, child, pn, perm);
    } else if PageLookup(parent, PageVa(pn)).Some? {
      var pte := PageLookup(parent, PageVa(pn)).value;
      var ins := PageInsert(m, child, PageVa(pn), pte.page, PteFlags(pte.perm));
      if ins.Inserted? {
        CopyCopiesAt(ins.m, parent, ins.s, pn + 1, PteFlags(pte.perm), q);
      }
    }
  }

  /** When the loop runs to the end, every page from `pn` on is the parent's
      page with its low permission bits. */
  lemma CopyCopies(m: Phys, parent: AddrSpace, child: AddrSpace, pn: nat, perm: bv32)
    ensures var r := CopyMappings(m, parent, child, pn, perm);
      r.err.None? ==> forall q :: pn <= q < SpawnPages ==> Copied(parent, r.s, q)
  {
    forall q | pn <= q < SpawnPages
      ensures var r := CopyMappings(m, parent, child, pn, perm);
        r.err.None? ==> Copied(parent, r.s, q)
    {
      CopyCopiesAt(m, parent, child, pn, perm, q);
    }
  }

  /** Page tables the loop allocates from page `pn` on, when every page is
      mapped and the child has no table past `pn`'s slot: one for each later
      slot up to LastSlot, and one for `pn`'s own slot if it is missing. */
  function TablesNeeded(s: AddrSpace, pn: nat): int {
    LastSlot - Pdx(PageVa(pn)) + (if Pdx(PageVa(pn)) in s.tables then 0 else 1)
  }

  /** The loop runs to the end exactly when the parent maps every page from
      `pn` on and the free list holds the page tables still missing. */
  lemma {:induction false} CopyCompletes(m: Phys, parent: AddrSpace, child: AddrSpace, pn: nat, perm: bv32)
    requires pn < SpawnPages
    requires forall d :: d in child.tables ==> d <= Pdx(PageVa(pn))
    ensures CopyMappings(m, parent, child, pn, perm).err.None? <==>
      (forall q :: pn <= q < SpawnPages ==> Mapped(parent, q)) && |m.free| >= TablesNeeded(child, pn)
    decreases SpawnPages - pn
  {
    SlotStep(pn);
    if Mapped(parent, pn) {
      var pte := PageLookup(parent, PageVa(pn)).value;
      var ins := PageInsert(m, child, PageVa(pn), pte.page, PteFlags(pte.perm));
      if ins.Inserted? && pn + 1 < SpawnPages {
        CopyCompletes(ins.m, parent, ins.s, pn + 1, PteFlags(pte.perm));
      }
    }
  }

  /** A loop that runs to the end has used exactly the page tables that
      were missing, and the last slot has its table. */
  lemma {:induction false} CopyUsesTables(m: Phys, parent: AddrSpace, child: AddrSpace, pn: nat, perm: bv32)
    requires pn < SpawnPages
    requires forall d :: d in child.tables ==> d <= Pdx(PageVa(pn))
    ensures var r := CopyMappings(m, parent, child, pn, perm);
      r.err.None? ==>
        && 0 <= TablesNeeded(child, pn) <= |m.free|
        && r.m == Consumed(m, TablesNeeded(child, pn))
        && LastSlot in r.s.tables
    decreases SpawnPages - pn
  {
    SlotStep(pn);
    ConsumedSmall(m);
    if Mapped(parent, pn) {
      var pte := PageLookup(parent, PageVa(pn)).value;
      var ins := PageInsert(m, child, PageVa(pn), pte.page, PteFlags(pte.perm));
      if ins.Inserted? && pn + 1 < SpawnPages {
        CopyUsesTables(ins.m, parent, ins.s, pn + 1, PteFlags(pte.perm));
        var r := CopyMappings(ins.m, parent, ins.s, pn + 1, PteFlags(pte.perm));
        if r.err.None? && Pdx(PageVa(pn)) !in child.tables {
          ConsumedTwice(m, 1, TablesNeeded(ins.s, pn + 1));
        }
      }
    }
  }

  /** The loop fails only with E_INVAL, when some page of the range is
      unmapped in the parent, or with E_NO_MEM. */
  lemma {:induction false} CopyErrors(m: Phys, parent: AddrSpace, child: AddrSpace, pn: nat, perm: bv32)
    ensures var r := CopyMappings(m, parent, child, pn, perm);
      && (r.err.Some? ==> r.err == Some(Inval) || r.err == Some(NoMem))
      && (r.err == Some(Inval) ==> exists q :: pn <= q < SpawnPages && PageLookup(parent, PageVa(q)).None?)
    decreases SpawnPages - pn
  {
    if pn < SpawnPages && PageLookup(parent, PageVa(pn)).Some? {
      var pte := PageLookup(parent, PageVa(pn)).value;
      var ins := PageInsert(m, child, PageVa(pn), pte.page, PteFlags(pte.perm));
      if ins.Inserted? {
        CopyErrors(ins.m, parent, ins.s, pn + 1, PteFlags(pte.perm));
      }
    }
  }

  /** After a complete run over a non-empty range, `perm` holds the low
      twelve bits of the last page's permissions: the exception stack is
      mapped with those. */
  lemma {:induction false} CopyLastPerm(m: Phys, parent: AddrSpace, child: AddrSpace, pn: nat, perm: bv32)
    ensures var r := CopyMappings(m, parent, child, pn, perm);
      r.err.None? && pn < SpawnPages ==>
        && PageLookup(parent, PageVa(SpawnPages - 1)).Some?
        && r.perm == PteFlags(PageLookup(parent, PageVa(SpawnPages - 1)).value.perm)
    decreases SpawnPages - pn
  {
    if pn < SpawnPages && PageLookup(parent, PageVa(pn)).Some? {
      var pte := PageLookup(parent, PageVa(pn)).value;
      var ins := PageInsert(m, child, PageVa(pn), pte.page, PteFlags(pte.perm));
      if ins.Inserted? {
        CopyLastPerm(ins.m, parent, ins.s, pn + 1, PteFlags(pte.perm));
      }
    }
  }

  /** The loop never releases a physical page. */
  lemma {:induction false} CopyKeepsUsed(m: Phys, parent: AddrSpace, child: AddrSpace, pn: nat, perm: bv32)
    ensures m.used <= CopyMappings(m, parent, child, pn, perm).m.used
    decreases SpawnPages - pn
  {
    if pn < SpawnPages && PageLookup(parent, PageVa(pn)).Some? {
      var pte := PageLookup(parent, PageVa(pn)).value;
      var ins := PageInsert(m, child, PageVa(pn), pte.page, PteFlags(pte.perm));
      if ins.Inserted? {
        CopyKeepsUsed(ins.m, parent, ins.s, pn + 1, PteFlags(pte.perm));
      }
    }
  }

  datatype Spawn = Spawned(k: Kernel, id: EnvId) | SpawnFailed(k: Kernel, error: Error)

  /** The fields of a finished worker, relative to the parent that spawned it. */
  predicate IsWorkerOf(w: Env, parent: Env) {
    && w.etype == Flex
    && w.upcall == parent.upcall
    && w.status == Runnable
    && w.parent == parent.id
    && w.link.None?
    && w.tf.eip == ScthreadTask
    && SharesBelowStack(parent.space, w.space)
    && PageLookup(w.space, XStackVa).Some?
  }

  /** A freshly spawned worker of `parent` with id `id` over the address
      space `space`: env_alloc's new environment, made a runnable FLEX worker
      that starts in the polling loop with the parent's page-fault upcall. */
  function WorkerRecord(id: EnvId, parent: Env, space: AddrSpace): Env {
    var e := NewEnv(id, parent.id);
    e.(space := space, etype := Flex, upcall := parent.upcall, tf := e.tf.(eip := ScthreadTask), status := Runnable)
  }

  /** Allocating the exception stack and then, if its slot has none, its
      page table takes one or two pages from the head of the free list. */
  lemma StackMemory(m: Phys, s: AddrSpace, perm: bv32)
    requires |m.free| > 0
    requires PageInsert(PageAlloc(m).value.1, s, XStackVa, m.free[0], perm).Inserted?
    ensures PageInsert(PageAlloc(m).value.1, s, XStackVa, m.free[0], perm).m
      == (if Pdx(XStackVa) in s.tables then Consumed(m, 1) else Consumed(m, 2))
  {
    var m1 := PageAlloc(m).value.1;
    ConsumedSmall(m);
    if Pdx(XStackVa) !in s.tables {
      ConsumedSmall(m1);
      ConsumedTwice(m, 1, 1);
    }
  }

  /** The end of scthread_spawn, once the copy loop is done: map a fresh
      page as the exception stack of child `id` (with the loop's last
      `perm`), then make the child a runnable FLEX worker that starts in the
      polling loop with `upcall` as its page-fault upcall. */
  function FinishWorker(k: Kernel, id: EnvId, upcall: u32, perm: bv32): (r: Spawn)
    requires id in k.envs
    ensures r.k.cur == k.cur && r.k.envs.Keys == k.envs.Keys
    ensures forall x :: x in k.envs && x != id ==> r.k.envs[x] == k.envs[x]
    ensures r.k.scpool == k.scpool && r.k.scFrames == k.scFrames && r.k.envFree == k.envFree
    ensures r.SpawnFailed? ==> r.error == NoMem && r.k.envs[id] == k.envs[id]
    ensures r.Spawned? <==>
      |k.phys.free| > 0 && (Pdx(XStackVa) in k.envs[id].space.tables || |k.phys.free| > 1)
    ensures r.Spawned? ==> r.id == id
    ensures r.Spawned? ==>
      r.k.phys == (if Pdx(XStackVa) in k.envs[id].space.tables then Consumed(k.phys, 1) else Consumed(k.phys, 2))
    ensures r.Spawned? ==>
      var w := r.k.envs[id];
      && w == k.envs[id].(space := w.space, etype := Flex, upcall := upcall,
                         tf := k.envs[id].tf.(eip := ScthreadTask), status := Runnable)
      && PageLookup(w.space, XStackVa) == Some(Pte(k.phys.free[0], Present(perm)))
      && (forall a :: PageBase(a) != XStackVa ==> PageLookup(w.space, a) == PageLookup(k.envs[id].space, a))
  {
    var child := k.envs[id];
    match PageAlloc(k.phys)
    case None => SpawnFailed(k, NoMem)
    case Some((xstack, m1)) =>
      match PageInsert(m1, child.space, XStackVa, xstack, perm)
      case InsertNoMem => SpawnFailed(k.(phys := m1), NoMem)
      case Inserted(m2, s2) =>
        InsertLookup(m1, child.space, XStackVa, xstack, perm);
        StackMemory(k.phys, child.space, perm);
        var w := child.(space := s2, etype := Flex, upcall := upcall,
                        tf := child.tf.(eip := ScthreadTask), status := Runnable);
        Spawned(SetEnv(k.(phys := m2), id, w), id)
  }

  /** Mapping the exception stack does not disturb the copied pages. */
  lemma WorkerKeepsCopies(parent: AddrSpace, s: AddrSpace, w: AddrSpace)
    requires SharesBelowStack(parent, s)
    requires forall a :: PageBase(a) != XStackVa ==> PageLookup(w, a) == PageLookup(s, a)
    ensures SharesBelowStack(parent, w)
  {
    forall q | 0 <= q < SpawnPages
      ensures Copied(parent, w, q)
    {
      CopyRange(q);
      assert Copied(parent, s, q);
      assert PageLookup(w, PageVa(q)) == PageLookup(s, PageVa(q));
    }
  }

  /** The worker's address space: every page of the copied range shared with
      the parent, the exception stack on page `xstack` with the permission bits
      of the last copied page, and nothing else mapped above the range. */
  ghost predicate WorkerSpace(parent: AddrSpace, w: AddrSpace, xstack: PageId) {
    && SharesBelowStack(parent, w)
    && PageLookup(parent, PageVa(SpawnPages - 1)).Some?
    && PageLookup(w, XStackVa)
       == Some(Pte(xstack, Present(PteFlags(PageLookup(parent, PageVa(SpawnPages - 1)).value.perm))))
    && (forall a :: PageBase(a) >= PageVa(SpawnPages) && PageBase(a) != XStackVa ==> PageLookup(w, a).None?)
  }

  /** scthread_spawn after env_alloc has made `id` a fresh child of
      `parent`: the copy loop, then the exception stack and the worker's
      fields. A spawn that gets this far needs SpawnMemory - 1 more pages. */
  function CopyAndFinish(k: Kernel, id: EnvId, parent: Env): (r: Spawn)
    requires id in k.envs && k.envs[id] == NewEnv(id, parent.id)
    ensures r.k.cur == k.cur && r.k.envs.Keys == k.envs.Keys
    ensures forall x :: x in k.envs && x != id ==> r.k.envs[x] == k.envs[x]
    ensures r.k.envFree == k.envFree && r.k.scpool == k.scpool && r.k.scFrames == k.scFrames
    ensures r.Spawned? <==>
      (forall q :: 0 <= q < SpawnPages ==> Mapped(parent.space, q)) && |k.phys.free| >= SpawnMemory - 1
    ensures PageLookup(parent.space, 0).None? ==> r.SpawnFailed? && r.error == Inval
    ensures r.Spawned? ==>
      && r.id == id
      && r.k.phys == Consumed(k.phys, SpawnMemory - 1)
      && r.k.envs[id] == WorkerRecord(id, parent, r.k.envs[id].space)
  {
    var child := k.envs[id];
    var c := CopyMappings(k.phys, parent.space, child.space, 0, 0);
    var k2 := SetEnv(k.(phys := c.m), id, child.(space := c.s));
    CopyCompletes(k.phys, parent.space, child.space, 0, 0);
    SpawnSlots();
    if c.err.Some? then SpawnFailed(k2, c.err.value)
    else
      CopyUsesTables(k.phys, parent.space, child.space, 0, 0);
      var r := FinishWorker(k2, id, parent.upcall, c.perm);
      if r.Spawned? then
        assert r.k.phys == Consumed(c.m, 1);
        ConsumedTwice(k.phys, LastSlot + 1, 1);
        r
      else r
  }

  /** The worker CopyAndFinish builds shares the parent's pages below the
      stack and maps its exception stack on the page the last allocation
      took, and nothing else. */
  lemma CopyAndFinishSpace(k: Kernel, id: EnvId, parent: Env)
    requires id in k.envs && k.envs[id] == NewEnv(id, parent.id)
    ensures var r := CopyAndFinish(k, id, parent);
      r.Spawned? ==> WorkerSpace(parent.space, r.k.envs[id].space, k.phys.free[SpawnMemory - 2])
  {
    var child := k.envs[id];
    var c := CopyMappings(k.phys, parent.space, child.space, 0, 0);
    var k2 := SetEnv(k.(phys := c.m), id, child.(space := c.s));
    var r := CopyAndFinish(k, id, parent);
    if r.Spawned? {
      CopyCompletes(k.phys, parent.space, child.space, 0, 0);
      SpawnSlots();
      CopyUsesTables(k.phys, parent.space, child.space, 0, 0);
      CopyCopies(k.phys, parent.space, child.space, 0, 0);
      CopyFrame(k.phys, parent.space, child.space, 0, 0);
      CopyLastPerm(k.phys, parent.space, child.space, 0, 0);
      assert r == FinishWorker(k2, id, parent.upcall, c.perm);
      WorkerKeepsCopies(parent.space, c.s, r.k.envs[id].space);
      assert k2.phys.free[0] == k.phys.free[SpawnMemory - 2];
    }
  }

  /** scthread_spawn(curenv): allocate a child of the caller, copy every
      mapping below USTACKTOP - PGSIZE, give it a fresh exception-stack page
      (mapped with the loop's last `perm`), make it a runnable FLEX worker
      that starts in the polling loop with the parent's page-fault upcall.
      On failure the child stays allocated, as far as it got. On success
      exactly one id and SpawnMemory pages are consumed: the page directory,
      the page tables, and the exception stack, which is the last of them. */
  function ScthreadSpawn(k: Kernel): (r: Spawn)
    requires CurValid(k)
    ensures r.k.cur == k.cur && k.envs.Keys <= r.k.envs.Keys
    ensures r.Spawned? <==>
      && |k.envFree| > 0
      && (forall q :: 0 <= q < SpawnPages ==> Mapped(Cur(k).space, q))
      && |k.phys.free| >= SpawnMemory
    ensures r.Spawned? ==> |k.envFree| > 0 && r.id == k.envFree[0] && r.id in r.k.envs
    ensures r.Spawned? ==> IsWorkerOf(r.k.envs[r.id], Cur(k))
    ensures r.Spawned? ==> forall x :: x in k.envs && x != r.id ==> r.k.envs[x] == k.envs[x]
    ensures r.Spawned? ==>
      && r.k.envs.Keys == k.envs.Keys + {r.id}
      && r.k.envFree == k.envFree[1..]
      && |k.phys.free| >= SpawnMemory && r.k.phys == Consumed(k.phys, SpawnMemory)
      && r.k.envs[r.id] == WorkerRecord(r.id, Cur(k), r.k.envs[r.id].space)
      && WorkerSpace(Cur(k).space, r.k.envs[r.id].space, k.phys.free[SpawnMemory - 1])
    ensures r.SpawnFailed? && (|k.envFree| == 0 || |k.phys.free| == 0) ==> r.k == k
    ensures |k.envFree| > 0 && |k.phys.free| > 0 && PageLookup(Cur(k).space, 0).None? ==>
      r.SpawnFailed? && r.error == Inval
    ensures r.SpawnFailed? && |k.envFree| > 0 && |k.phys.free| > 0 ==>
      forall x :: x in k.envs && x != k.envFree[0] ==> r.k.envs[x] == k.envs[x]
    ensures r.k.scpool == k.scpool && r.k.scFrames == k.scFrames
  {
    var parent := Cur(k);
    match EnvAlloc(k, parent.id)
    case AllocFailed(e) => SpawnFailed(k, e)
    case Allocated(k1, id) =>
      var r := CopyAndFinish(k1, id, parent);
      CopyAndFinishSpace(k1, id, parent);
      if r.Spawned? then
        ConsumedSmall(k.phys);
        ConsumedTwice(k.phys, 1, SpawnMemory - 1);
        r
      else r
  }
}

=== FILE: invariant.dfy ===
/** The kernel invariant KernelWf is kept by every system call: no handler
    renames an environment, brings an id env_alloc will hand out to life,
    links to one, or hands out the same id twice. */
module Invariant {
  import opened Base
  import opened Pmap
  import opened ScPages
  import opened Env
  import opened Flexsc
  import opened Syscall

  /** A state that differs from a well-formed one only in environment `id`,
      which keeps its id and link and is not on the free-id list, is
      well-formed. */
  lemma OneEnvChangedWf(k: Kernel, k': Kernel, id: EnvId)
    requires KernelWf(k) && id in k.envs && id !in k.envFree
    requires k'.cur == k.cur && k'.envFree == k.envFree && k'.envs.Keys == k.envs.Keys
    requires forall x :: x in k.envs && x != id ==> k'.envs[x] == k.envs[x]
    requires k'.envs[id].id == id && k'.envs[id].link == k.envs[id].link
    ensures KernelWf(k')
  {
    forall i | 0 <= i < |k'.envFree|
      ensures Unclaimed(k', k'.envFree[i])
    {
      assert Unclaimed(k, k.envFree[i]);
    }
  }

  /** An id that resolves names the caller or a live environment, neither
      of which is on the free-id list. */
  lemma ResolvedNotFree(k: Kernel, envid: EnvId, checkperm: bool)
    requires KernelWf(k)
    ensures Envid2Env(k, envid, checkperm).Some? ==> Envid2Env(k, envid, checkperm).value !in k.envFree
  {
    if Envid2Env(k, envid, checkperm).Some? {
      var id := Envid2Env(k, envid, checkperm).value;
      forall i | 0 <= i < |k.envFree|
        ensures k.envFree[i] != id
      {
        assert Unclaimed(k, k.envFree[i]);
      }
    }
  }

  /** A partner is never on the free-id list. */
  lemma LinkNotFree(k: Kernel, x: EnvId)
    requires KernelWf(k) && x in k.envs
    ensures k.envs[x].link.Some? ==> k.envs[x].link.value !in k.envFree
  {
    forall i | 0 <= i < |k.envFree|
      ensures k.envs[x].link != Some(k.envFree[i])
    {
      assert Unclaimed(k, k.envFree[i]);
    }
  }

  lemma SysEnvDestroyKeepsWf(k: Kernel, envid: EnvId)
    requires KernelWf(k)
    ensures KernelWf(SysEnvDestroy(k, envid).k)
  {
    if Envid2Env(k, envid, true).Some? {
      var id := Envid2Env(k, envid, true).value;
      var e := k.envs[id];
      var k1 := if e.link.Some? then EnvDestroy(k, e.link.value) else k;
      EnvDestroyKeepsWf(k, if e.link.Some? then e.link.value else id);
      EnvDestroyKeepsWf(k1, id);
    }
  }

  lemma SysExoforkKeepsWf(k: Kernel)
    requires KernelWf(k)
    ensures KernelWf(SysExofork(k).k)
  {
    EnvAllocKeepsWf(k, Cur(k).id);
    match EnvAlloc(k, Cur(k).id)
    case AllocFailed(_) =>
    case Allocated(k1, id) =>
      SetEnvWf(k1, id, k1.envs[id].(status := NotRunnable, tf := Cur(k).tf.(eax := 0)));
  }

  lemma SysEnvSetStatusKeepsWf(k: Kernel, envid: EnvId, status: int)
    requires KernelWf(k)
    ensures KernelWf(SysEnvSetStatus(k, envid, status).k)
  {
    ResolvedNotFree(k, envid, true);
    if SettableStatus(status) && Envid2Env(k, envid, true).Some? {
      var id := Envid2Env(k, envid, true).value;
      LinkNotFree(k, id);
      SetEnvWf(k, id, k.envs[id].(status := if status == StatusCode(Runnable) then Runnable else NotRunnable));
    }
  }

  lemma SysEnvSetPgfaultUpcallKeepsWf(k: Kernel, envid: EnvId, func: u32)
    requires KernelWf(k)
    ensures KernelWf(SysEnvSetPgfaultUpcall(k, envid, func).k)
  {
    ResolvedNotFree(k, envid, true);
    if Envid2Env(k, envid, true).Some? {
      var id := Envid2Env(k, envid, true).value;
      LinkNotFree(k, id);
      SetEnvWf(k, id, k.envs[id].(upcall := func));
    }
  }

  lemma SysEnvSetPriorityKeepsWf(k: Kernel, envid: EnvId, priority: int)
    requires KernelWf(k)
    ensures KernelWf(SysEnvSetPriority(k, envid, priority).k)
  {
    ResolvedNotFree(k, envid, true);
    if PrHighest <= priority <= PrLowest && Envid2Env(k, envid, true).Some? {
      var id := Envid2Env(k, envid, true).value;
      LinkNotFree(k, id);
      SetEnvWf(k, id, k.envs[id].(priority := priority));
    }
  }

  lemma SysPageAllocKeepsWf(k: Kernel, envid: EnvId, va: u32, perm: bv32)
    requires KernelWf(k)
    ensures KernelWf(SysPageAlloc(k, envid, va, perm).k)
  {
    var r := SysPageAlloc(k, envid, va, perm);
    ResolvedNotFree(k, envid, true);
    if r.ret.Ok? {
      var id := Envid2Env(k, envid, true).value;
      LinkNotFree(k, id);
      OneEnvChangedWf(k, r.k, id);
    }
  }

  lemma PageMapResolvedKeepsWf(k: Kernel, src: EnvId, srcva: u32, dst: EnvId, dstva: u32, perm: bv32)
    requires KernelWf(k) && src in k.envs && dst in k.envs && dst !in k.envFree
    ensures KernelWf(PageMapResolved(k, src, srcva, dst, dstva, perm).k)
  {
    var r := PageMapResolved(k, src, srcva, dst, dstva, perm);
    if r.ret.Ok? {
      LinkNotFree(k, dst);
      OneEnvChangedWf(k, r.k, dst);
    }
  }

  lemma SysPageMapKeepsWf(k: Kernel, srcenvid: EnvId, srcva: u32, dstenvid: EnvId, dstva: u32, perm: bv32)
    requires KernelWf(k)
    ensures KernelWf(SysPageMap(k, srcenvid, srcva, dstenvid, dstva, perm).k)
  {
    ResolvedNotFree(k, dstenvid, true);
    if Envid2Env(k, srcenvid, true).Some? && Envid2Env(k, dstenvid, true).Some? {
      PageMapResolvedKeepsWf(k, Envid2Env(k, srcenvid, true).value, srcva,
                             Envid2Env(k, dstenvid, true).value, dstva, perm);
    }
  }

  lemma SysPageUnmapKeepsWf(k: Kernel, envid: EnvId, va: u32)
    requires KernelWf(k)
    ensures KernelWf(SysPageUnmap(k, envid, va).k)
  {
    ResolvedNotFree(k, envid, true);
    if UserVa(va) && Envid2Env(k, envid, true).Some? {
      var id := Envid2Env(k, envid, true).value;
      LinkNotFree(k, id);
      SetEnvWf(k, id, k.envs[id].(space := PageRemove(k.envs[id].space, va)));
    }
  }

  lemma SysIpcTrySendKeepsWf(k: Kernel, envid: EnvId, value: u32, srcva: u32, perm: bv32)
    requires KernelWf(k)
    ensures KernelWf(SysIpcTrySend(k, envid, value, srcva, perm).k)
  {
    ResolvedNotFree(k, envid, false);
    if Envid2Env(k, envid, false).Some? {
      var id := Envid2Env(k, envid, false).value;
      var e := k.envs[id];
      if e.ipcRecving {
        var d := Delivered(e, Cur(k).id, value);
        LinkNotFree(k, id);
        SetEnvWf(k, id, d);
        var k1 := SetEnv(k, id, d);
        var r := SysIpcTrySend(k, envid, value, srcva, perm);
        if r.ret.Ok? {
          OneEnvChangedWf(k1, r.k, id);
        }
      }
    }
  }

  lemma SysIpcRecvKeepsWf(k: Kernel, dstva: u32)
    requires KernelWf(k)
    ensures KernelWf(SysIpcRecv(k, dstva).k)
  {
    var c := Cur(k);
    LinkNotFree(k, k.cur);
    ResolvedNotFree(k, 0, true);
    if c.etype == Flex && c.link.Some? && c.link.value in k.envs {
      var l := c.link.value;
      LinkNotFree(k, l);
      SetEnvWf(k, l, k.envs[l].(ipcRecving := true, status := NotRunnable));
    } else if c.etype != Flex {
      var r := SysIpcRecv(k, dstva);
      OneEnvChangedWf(k, r.k, k.cur);
    }
  }

  lemma ScthreadSpawnKeepsWf(k: Kernel)
    requires KernelWf(k)
    ensures KernelWf(ScthreadSpawn(k).k)
    ensures ScthreadSpawn(k).Spawned? ==> ScthreadSpawn(k).id !in ScthreadSpawn(k).k.envFree
  {
    var parent := Cur(k);
    EnvAllocKeepsWf(k, parent.id);
    match EnvAlloc(k, parent.id)
    case AllocFailed(_) =>
    case Allocated(k1, id) =>
      var child := k1.envs[id];
      var c := CopyMappings(k1.phys, parent.space, child.space, 0, 0);
      LinkNotFree(k1, id);
      SetEnvWf(k1.(phys := c.m), id, child.(space := c.s));
      var k2 := SetEnv(k1.(phys := c.m), id, child.(space := c.s));
      if c.err.None? {
        var r := FinishWorker(k2, id, parent.upcall, c.perm);
        OneEnvChangedWf(k2, r.k, id);
      }
  }

  /** Linking a worker that is not on the free-id list with the caller. */
  lemma LinkPartnersKeepsWf(k: Kernel, w: EnvId, slot: nat)
    requires KernelWf(k) && w in k.envs && w !in k.envFree
    ensures KernelWf(LinkPartners(k, w, slot))
  {
    ResolvedNotFree(k, 0, true);
    LinkNotFree(k, w);
    SetEnvWf(k, w, k.envs[w].(scpage := Some(slot)));
    var k1 := SetEnv(k, w, k.envs[w].(scpage := Some(slot)));
    LinkNotFree(k1, k.cur);
    SetEnvWf(k1, k.cur, k1.envs[k.cur].(scpage := Some(slot), link := Some(w)));
    var k2 := SetEnv(k1, k.cur, k1.envs[k.cur].(scpage := Some(slot), link := Some(w)));
    SetEnvWf(k2, w, k2.envs[w].(link := Some(k.cur)));
  }

  lemma SpawnAndLinkKeepsWf(k: Kernel, slot: nat)
    requires KernelWf(k)
    ensures KernelWf(SpawnAndLink(k, slot).k)
  {
    ScthreadSpawnKeepsWf(k);
    match ScthreadSpawn(k)
    case SpawnFailed(_, _) =>
    case Spawned(k1, w) => LinkPartnersKeepsWf(k1, w, slot);
  }

  lemma FlexscRegisterKeepsWf(k: Kernel, va: u32)
    requires KernelWf(k)
    ensures KernelWf(FlexscRegister(k, va).k)
  {
    var c := Cur(k);
    EnvDestroyKeepsWf(k, k.cur);
    var a := ScpageAlloc(k.scpool);
    if UserPageRangeOk(c.space, va, ScPagePerm) && a.slot.Some? && a.slot.value in k.scFrames {
      var k1 := k.(scpool := a.pool);
      match PageInsert(k1.phys, c.space, va, k.scFrames[a.slot.value], ScPagePerm)
      case InsertNoMem =>
      case Inserted(m, s) =>
        ResolvedNotFree(k, 0, true);
        LinkNotFree(k, k.cur);
        SetEnvWf(k1.(phys := m), k.cur, c.(space := s));
        SpawnAndLinkKeepsWf(SetEnv(k1.(phys := m), k.cur, c.(space := s)), a.slot.value);
    }
  }

  lemma FlexscWaitKeepsWf(k: Kernel)
    requires KernelWf(k)
    ensures KernelWf(FlexscWait(k).k)
  {
    var c := Cur(k);
    if c.link.Some? && c.link.value in k.envs {
      var l := c.link.value;
      LinkNotFree(k, k.cur);
      LinkNotFree(k, l);
      SetEnvWf(k, l, k.envs[l].(status := Runnable));
      var k1 := SetEnv(k, l, k.envs[l].(status := Runnable));
      ResolvedNotFree(k1, 0, true);
      LinkNotFree(k1, k.cur);
      SetEnvWf(k1, k.cur, k1.envs[k.cur].(status := NotRunnable));
    }
  }

  /** Every system call, known or not, keeps the invariant. */
  lemma DispatchKeepsWf(k: Kernel, no: u32, a1: u32, a2: u32, a3: u32, a4: u32, a5: u32)
    requires KernelWf(k)
    ensures KernelWf(Dispatch(k, no, a1, a2, a3, a4, a5).k)
  {
    match DecodeSysno(no)
    case None =>
    case Some(op) =>
      match op
      case OpEnvDestroy => SysEnvDestroyKeepsWf(k, ToInt32(a1));
      case OpExofork => SysExoforkKeepsWf(k);
      case OpEnvSetStatus => SysEnvSetStatusKeepsWf(k, ToInt32(a1), ToInt32(a2));
      case OpEnvSetPgfaultUpcall => SysEnvSetPgfaultUpcallKeepsWf(k, ToInt32(a1), a2);
      case OpEnvSetPriority => SysEnvSetPriorityKeepsWf(k, ToInt32(a1), ToInt32(a2));
      case OpPageAlloc => SysPageAllocKeepsWf(k, ToInt32(a1), a2, a3 as bv32);
      case OpPageMap => SysPageMapKeepsWf(k, ToInt32(a1), a2, ToInt32(a3), a4, a5 as bv32);
      case OpPageUnmap => SysPageUnmapKeepsWf(k, ToInt32(a1), a2);
      case OpIpcTrySend => SysIpcTrySendKeepsWf(k, ToInt32(a1), a2, a3, a4 as bv32);
      case OpIpcRecv => SysIpcRecvKeepsWf(k, a1);
      case OpFlexscRegister => FlexscRegisterKeepsWf(k, a1);
      case OpFlexscWait => FlexscWaitKeepsWf(k);
      case _ =>
  }
}

=== FILE: pmap.dfy ===
/** The physical-page allocator and the page-table operations the system
    calls are built on (page_alloc, page_free, page_insert, page_lookup,
    page_remove), specified over an abstract address space. */
module Pmap {
  import opened Base

  /** A present page-table entry: the physical page and its permission bits. */
  datatype Pte = Pte(page: PageId, perm: bv32)

  /** The permission bits page_insert stores: the caller's, with PTE_P. */
  function Present(perm: bv32): bv32 {
    perm | PTE_P
  }

  /** `*pte & 0xFFF`: the low twelve (flag) bits of an entry's permissions. */
  function PteFlags(perm: bv32): bv32 {
    perm & 0xFFF
  }

  /** PTE_W is among the bits. */
  predicate Writable(perm: bv32) {
    perm & PTE_W != 0
  }

  /** Physical memory: the free list in the order page_alloc hands pages
      out, and the set of pages currently handed out. */
  datatype Phys = Phys(free: seq<PageId>, used: set<PageId>)

  /** A user address space: present mappings keyed by page-aligned virtual
      address, and the page-directory slots that already hold a page table. */
  datatype AddrSpace = AddrSpace(ptes: map<nat, Pte>, tables: set<nat>)

  const EmptySpace := AddrSpace(map[], {})

  /** The free list and the used set are disjoint. */
  ghost predicate PhysWf(m: Phys) {
    forall i :: 0 <= i < |m.free| ==> m.free[i] !in m.used
  }

  /** page_alloc: take the head of the free list, or fail when it is empty. */
  function PageAlloc(m: Phys): (r: Option<(PageId, Phys)>)
    ensures r.None? <==> |m.free| == 0
    ensures r.Some? ==> r.value.0 == m.free[0] && r.value.0 in r.value.1.used
    ensures r.Some? ==> r.value.1.free == m.free[1..]
    ensures r.Some? ==> r.value.1.used == m.used + {r.value.0}
  {
    if |m.free| == 0 then None
    else Some((m.free[0], Phys(m.free[1..], m.used + {m.free[0]})))
  }

  /** The allocator after `n` page_alloc calls in a row, each taking the
      head of the free list. */
  function Consumed(m: Phys, n: nat): (r: Phys)
    requires n <= |m.free|
    ensures r.free == m.free[n..]
    decreases n
  {
    if n == 0 then m else Consumed(Phys(m.free[1..], m.used + {m.free[0]}), n - 1)
  }

  /** After `n` allocations the free list has lost its first `n` pages, and
      exactly those have become used. */
  lemma {:induction false} ConsumedTakes(m: Phys, n: nat)
    requires n <= |m.free|
    ensures forall p :: p in Consumed(m, n).used <==> p in m.used || p in m.free[..n]
    decreases n
  {
    if n > 0 {
      var m1 := Phys(m.free[1..], m.used + {m.free[0]});
      ConsumedTakes(m1, n - 1);
      assert m.free[..n] == [m.free[0]] + m1.free[..n - 1];
    }
  }

  /** Taking no page changes nothing; taking one is page_alloc. */
  lemma ConsumedSmall(m: Phys)
    ensures Consumed(m, 0) == m
    ensures |m.free| > 0 ==> Consumed(m, 1) == Phys(m.free[1..], m.used + {m.free[0]})
  {
  }

  /** Taking `a` pages and then `b` more is taking `a + b`. */
  lemma {:induction false} ConsumedTwice(m: Phys, a: nat, b: nat)
    requires a + b <= |m.free|
    ensures Consumed(Consumed(m, a), b) == Consumed(m, a + b)
    decreases a
  {
    if a > 0 {
      ConsumedTwice(Phys(m.free[1..], m.used + {m.free[0]}), a - 1, b);
    }
  }

  /** page_free: put a page back at the head of the free list. */
  function PageFree(m: Phys, p: PageId): (r: Phys)
    ensures r.free == [p] + m.free
    ensures p !in r.used && r.used == m.used - {p}
  {
    Phys([p] + m.free, m.used - {p})
  }

  /** Freeing the page just allocated restores the allocator exactly. */
  lemma AllocThenFreeRestores(m: Phys)
    requires PhysWf(m) && |m.free| > 0
    ensures PageAlloc(m).Some?
    ensures PageFree(PageAlloc(m).value.1, PageAlloc(m).value.0) == m
  {
  }

  /** page_lookup: the entry mapping the page that holds `va`, if present. */
  function PageLookup(s: AddrSpace, va: nat): (r: Option<Pte>)
    ensures r.Some? <==> PageBase(va) in s.ptes
    ensures r.Some? ==> r.value == s.ptes[PageBase(va)]
  {
    if PageBase(va) in s.ptes then Some(s.ptes[PageBase(va)]) else None
  }

  /** Result of page_insert: the new allocator and address space, or the
      E_NO_MEM failure of pgdir_walk, which leaves both untouched. */
  datatype Insert = Inserted(m: Phys, s: AddrSpace) | InsertNoMem

  /** page_insert: map `pp` at `va` with `perm | PTE_P`, replacing whatever was
      mapped there; a missing page table is allocated first, and the call
      fails only when that allocation does. */
  function PageInsert(m: Phys, s: AddrSpace, va: nat, pp: PageId, perm: bv32): (r: Insert)
    ensures r.Inserted? <==> Pdx(va) in s.tables || |m.free| > 0
    ensures r.Inserted? ==> r.s.tables == s.tables + {Pdx(va)}
    ensures r.Inserted? ==> m.used <= r.m.used
    ensures r.Inserted? && Pdx(va) in s.tables ==> r.m == m
    ensures r.Inserted? && Pdx(va) !in s.tables ==> r.m.free == m.free[1..] && r.m.used == m.used + {m.free[0]}
  {
    var ptes := s.ptes[PageBase(va) := Pte(pp, Present(perm))];
    if Pdx(va) in s.tables then Inserted(m, s.(ptes := ptes))
    else match PageAlloc(m)
      case None => InsertNoMem
      case Some((pt, m')) => Inserted(m', AddrSpace(ptes, s.tables + {Pdx(va)}))
  }

  /** After a successful page_insert, a lookup at `va` finds the new page
      with `perm | PTE_P`, and a lookup of any other page finds what it found
      before. */
  lemma InsertLookup(m: Phys, s: AddrSpace, va: nat, pp: PageId, perm: bv32)
    requires PageInsert(m, s, va, pp, perm).Inserted?
    ensures var s' := PageInsert(m, s, va, pp, perm).s;
      && PageLookup(s', va) == Some(Pte(pp, Present(perm)))
      && (forall a :: PageBase(a) != PageBase(va) ==> PageLookup(s', a) == PageLookup(s, a))
  {
  }

  /** page_remove: drop any mapping of the page holding `va`. */
  function PageRemove(s: AddrSpace, va: nat): (r: AddrSpace)
    ensures PageLookup(r, va).None?
    ensures forall a :: PageBase(a) != PageBase(va) ==> PageLookup(r, a) == PageLookup(s, a)
    ensures r.tables == s.tables
  {
    s.(ptes := s.ptes - {PageBase(va)})
  }

  /** Removing twice is the same as removing once. */
  lemma PageRemoveIdempotent(s: AddrSpace, va: nat)
    ensures PageRemove(PageRemove(s, va), va) == PageRemove(s, va)
  {
  }

  /** The permission test the system calls apply:
      `!(perm & (PTE_U | PTE_P)) || perm & ~PTE_SYSCALL` rejects. */
  predicate PermOk(perm: bv32) {
    (perm & (Present(PTE_U))) != 0 && (perm & !PTE_SYSCALL) == 0
  }

  /** The rule the handlers' comments describe: both PTE_U and PTE_P set,
      nothing outside PTE_SYSCALL. */
  predicate PermDocumented(perm: bv32) {
    (perm & (Present(PTE_U))) == (Present(PTE_U)) && (perm & !PTE_SYSCALL) == 0
  }

  /** The coded test accepts every permission the documented rule accepts,
      and also some it forbids: PTE_P alone (a supervisor-only mapping) and
      PTE_U alone pass. */
  lemma PermCheckIsWeaker(perm: bv32)
    ensures PermDocumented(perm) ==> PermOk(perm)
    ensures PermOk(PTE_P) && !PermDocumented(PTE_P)
    ensures PermOk(PTE_U) && !PermDocumented(PTE_U)
  {
  }

  /** What PermOk accepts, bit by bit. */
  lemma PermOkMeaning(perm: bv32)
    ensures PermOk(perm) <==>
      ((perm & PTE_U) != 0 || (perm & PTE_P) != 0) &&
      perm == perm & (PTE_AVAIL | PTE_P | PTE_W | PTE_U)
  {
  }
}

=== FILE: scenarios.dfy ===
/** Properties that relate several system calls: an IPC rendezvous, the
    receive-side address that outlives a call, a failed send that still
    consumes the receive, destruction of linked pairs, and the partner
    relation flexsc_register sets up. */
module Scenarios {
  import opened Base
  import opened Pmap
  import opened ScPages
  import opened Env
  import opened Flexsc
  import opened Syscall

  /** sys_exofork followed by the parent marking the child runnable, the
      way user-level fork finishes: the child's id was unclaimed (neither 0,
      the caller, a live environment, nor anyone's partner), the parent may
      act on it, and afterwards the child is runnable with the parent's
      registers except that %eax reads 0. */
  lemma ExoforkThenSetRunnable(k: Kernel)
    requires KernelWf(k)
    ensures var r := SysExofork(k);
      r.ret.Ok? ==>
        var child := r.ret.value;
        var s := SysEnvSetStatus(r.k, child, StatusCode(Runnable));
        && child != 0 && child != k.cur
        && (child in k.envs ==> k.envs[child].status == Free)
        && (forall x :: x in k.envs ==> k.envs[x].link != Some(child))
        && s.ret == Ok(0)
        && s.k.envs[child] == r.k.envs[child].(status := Runnable)
        && s.k.envs[child].tf == Cur(k).tf.(eax := 0)
  {
    if SysExofork(k).ret.Ok? {
      assert Unclaimed(k, k.envFree[0]);
    }
  }

  /** A receive at page `dstva` followed by a send from another environment
      that offers a valid page: the send succeeds, the receiver is runnable
      again with the sender's id, value and permissions, and the receiver's
      `dstva` now maps the very physical page the sender has at `srcva`. */
  lemma RecvThenSendDelivers(k: Kernel, dstva: u32, sender: EnvId, value: u32, srcva: u32, perm: bv32)
    requires KernelWf(k)
    requires Cur(k).etype != Flex && UserVa(dstva)
    requires sender in k.envs && sender != k.cur
    requires srcva < UTOP && !TransferRejected(k.envs[sender].space, srcva, perm)
    requires Pdx(dstva) in Cur(k).space.tables || |k.phys.free| > 0
    ensures var k1 := SysIpcRecv(k, dstva).k;
      var t := SysIpcTrySend(k1.(cur := sender), k.cur, value, srcva, perm);
      var rcv := t.k.envs[k.cur];
      && t.ret == Ok(0)
      && rcv.status == Runnable && !rcv.ipcRecving
      && rcv.ipcFrom == sender && rcv.ipcValue == value && rcv.ipcPerm == perm
      && PageLookup(rcv.space, dstva).Some?
      && PageLookup(rcv.space, dstva).value.page == PageLookup(k.envs[sender].space, srcva).value.page
      && t.k.envs[sender] == k.envs[sender]
  {
  }

  /** A receive that names no page (dstva at or above UTOP) does not reset the
      recorded address: if an earlier receive left one below UTOP, a send
      that offers a page maps it there anyway; otherwise the send delivers
      the value alone, with permissions 0 and no mapping change. */
  lemma RecvAboveUtopKeepsPreviousDstva(k: Kernel, dstva: u32, sender: EnvId, value: u32, srcva: u32, perm: bv32)
    requires KernelWf(k)
    requires Cur(k).etype != Flex && dstva >= UTOP
    requires sender in k.envs && sender != k.cur
    requires srcva < UTOP && !TransferRejected(k.envs[sender].space, srcva, perm)
    requires Pdx(Cur(k).ipcDstva) in Cur(k).space.tables || |k.phys.free| > 0
    ensures var k1 := SysIpcRecv(k, dstva).k;
      var t := SysIpcTrySend(k1.(cur := sender), k.cur, value, srcva, perm);
      var rcv := t.k.envs[k.cur];
      && t.ret == Ok(0) && rcv.ipcValue == value
      && rcv.ipcDstva == Cur(k).ipcDstva
      && (Cur(k).ipcDstva < UTOP ==>
            && rcv.ipcPerm == perm
            && PageLookup(rcv.space, Cur(k).ipcDstva)
               == Some(Pte(PageLookup(k.envs[sender].space, srcva).value.page, Present(perm))))
      && (Cur(k).ipcDstva >= UTOP ==> rcv.ipcPerm == 0 && rcv.space == Cur(k).space)
  {
  }

  /** A send that gets past the receiving check but then fails (a rejected
      page or no memory for a page table) has still cleared the target's
      receiving flag: any further send to it is refused with
      E_IPC_NOT_RECV until it receives again. */
  lemma FailedSendConsumesReceive(k: Kernel, envid: EnvId, value: u32, srcva: u32, perm: bv32,
                                  value2: u32, srcva2: u32, perm2: bv32)
    requires CurValid(k)
    ensures var t := SysIpcTrySend(k, envid, value, srcva, perm);
      t.ret.Err? && t.ret.error != BadEnv && t.ret.error != IpcNotRecv ==>
        && CurValid(t.k)
        && SysIpcTrySend(t.k, envid, value2, srcva2, perm2) == Trans(Err(IpcNotRecv), t.k)
  {
  }

  /** Destroying an environment that has a partner, when neither is the
      caller, frees both: afterwards neither id names an environment. */
  lemma DestroyFreesPair(k: Kernel, envid: EnvId, checkperm: bool)
    requires KernelWf(k) && Envid2Env(k, envid, true).Some?
    requires var id := Envid2Env(k, envid, true).value;
      && id != k.cur && k.envs[id].link.Some?
      && k.envs[id].link.value in k.envs && k.envs[id].link.value != k.cur
    ensures var id := Envid2Env(k, envid, true).value;
      var r := SysEnvDestroy(k, envid);
      && r.ret == Ok(0)
      && Envid2Env(r.k, id, checkperm).None?
      && Envid2Env(r.k, k.envs[id].link.value, checkperm).None?
  {
  }

  /** After a successful flexsc_register the caller and its new worker are
      partners: the worker reports the caller's id as its own, a receive by
      the worker parks the caller, and flexsc_wait by the caller wakes the
      worker and puts the caller to sleep. */
  lemma RegisterMakesPartners(k: Kernel, va: u32, dstva: u32)
    requires KernelWf(k)
    ensures FlexscRegister(k, va).ret.Ok? ==>
      var r := FlexscRegister(k, va).k;
      var w := k.envFree[0];
      && w in r.envs
      && SysGetenvid(r.(cur := w)).ret == Ok(k.cur)
      && SysIpcRecv(r.(cur := w), dstva).ret == Err(Blocked)
      && SysIpcRecv(r.(cur := w), dstva).k.envs[k.cur].status == NotRunnable
      && FlexscWait(r).k.envs[w].status == Runnable
      && FlexscWait(r).k.envs[k.cur].status == NotRunnable
  {
    if FlexscRegister(k, va).ret.Ok? {
      assert Unclaimed(k, k.envFree[0]);
    }
  }

  /** A process whose page 0 is unmapped cannot register: the worker spawn
      stops at the first page of the copy loop and the kernel panics, even
      though the buffer, the pool, the environment table and memory would
      all have allowed it. */
  lemma RegisterPanicsWithoutPageZero(k: Kernel, va: u32)
    requires CurValid(k) && UserPageRangeOk(Cur(k).space, va, ScPagePerm)
    requires k.scpool.next < k.scpool.capacity && k.scpool.next in k.scFrames
    requires Pdx(va) in Cur(k).space.tables && PageBase(va) != 0
    requires k.envFree != [] && k.phys.free != []
    requires PageLookup(Cur(k).space, 0).None?
    ensures FlexscRegister(k, va).ret == Panicked
  {
  }
}

=== FILE: scpages.dfy ===
/** FlexSC syscall pages: the entry layout shared between a process and its
    worker, and the bounded pool scpage_alloc hands pages out of. */
module ScPages {
  import opened Base

  /** Life cycle of one syscall entry. */
  datatype FscStatus = FscFree | FscSubmitted | FscBusy | FscDone

  /** Position of a status in FREE -> SUBMITTED -> BUSY -> DONE. */
  function Rank(s: FscStatus): (r: nat)
    ensures r < 4
    ensures s == FscFree <==> r == 0
    ensures s == FscDone <==> r == 3
  {
    match s
    case FscFree => 0
    case FscSubmitted => 1
    case FscBusy => 2
    case FscDone => 3
  }

  /** The five syscall arguments of an entry. */
  type Args = a: seq<u32> | |a| == 5 witness [0, 0, 0, 0, 0]

  /** One slot of a syscall page: the call to make, its arguments, its result. */
  datatype Entry = Entry(status: FscStatus, scNum: u32, args: Args, ret: SysRet)

  /** An entry after memset to zero (FSC_FREE is the zero status). */
  const ZeroEntry := Entry(FscFree, 0, [0, 0, 0, 0, 0], Ok(0))

  /** The static syscall-page pool: `capacity` pages (NSCPAGES) of `entries`
      entries each (NSCENTRIES), of which the first `next` (sc_pgnum) have
      been handed out. */
  datatype ScPool = ScPool(capacity: nat, entries: nat, next: nat)

  /** Result of scpage_alloc: the updated pool, the slot handed out (None
      for the NULL return) and that page's contents after the reset loop. */
  datatype ScAlloc = ScAlloc(pool: ScPool, slot: Option<nat>, page: seq<Entry>)

  /** scpage_alloc: hand out the next unused page, cleared, or NULL once
      `capacity` pages have been handed out. */
  function ScpageAlloc(pool: ScPool): (r: ScAlloc)
    ensures r.slot.None? <==> pool.next >= pool.capacity
    ensures r.slot.None? ==> r.pool == pool
    ensures r.slot.Some? ==>
      && r.slot.value == pool.next < pool.capacity
      && r.pool == pool.(next := pool.next + 1)
      && r.pool.next <= r.pool.capacity
    ensures r.slot.Some? ==>
      |r.page| == pool.entries && forall i :: 0 <= i < |r.page| ==> r.page[i] == ZeroEntry
    ensures r.pool.capacity == pool.capacity && r.pool.entries == pool.entries
  {
    if pool.next >= pool.capacity then ScAlloc(pool, None, [])
    else ScAlloc(pool.(next := pool.next + 1), Some(pool.next), seq(pool.entries, _ => ZeroEntry))
  }

  /** The slots handed out by `n` successive calls of scpage_alloc (the
      NULL returns contribute nothing), and the pool afterwards. */
  function AllocMany(pool: ScPool, n: nat): (r: (seq<nat>, ScPool))
    decreases n
  {
    if n == 0 then ([], pool)
    else
      var a := ScpageAlloc(pool);
      var rest := AllocMany(a.pool, n - 1);
      match a.slot
      case None => rest
      case Some(slot) => ([slot] + rest.0, rest.1)
  }

  /** Successive calls hand out consecutive slots, in increasing order and
      therefore distinct, stop at the pool's capacity, and never push the
      counter past it. */
  lemma {:induction false} AllocManyConsecutive(pool: ScPool, n: nat)
    requires pool.next <= pool.capacity
    ensures var (slots, p) := AllocMany(pool, n);
      && |slots| == (if n <= pool.capacity - pool.next then n else pool.capacity - pool.next)
      && (forall i :: 0 <= i < |slots| ==> slots[i] == pool.next + i)
      && (forall i :: 0 <= i < |slots| ==> slots[i] < pool.capacity)
      && p.next == pool.next + |slots| <= p.capacity == pool.capacity
    decreases n
  {
    if n > 0 {
      var a := ScpageAlloc(pool);
      AllocManyConsecutive(a.pool, n - 1);
    }
  }

  /** Slots from successive calls are strictly increasing, hence distinct. */
  lemma AllocManyDistinct(pool: ScPool, n: nat)
    requires pool.next <= pool.capacity
    ensures var slots := AllocMany(pool, n).0;
      forall i, j :: 0 <= i < j < |slots| ==> slots[i] < slots[j]
  {
    AllocManyConsecutive(pool, n);
  }
}

=== FILE: syscall.dfy ===
/** The system call handlers of the kernel and the dispatcher that routes a
    trapped call to them. Each handler is a transition of the kernel state
    paired with how control leaves it. */
module Syscall {
  import opened Base
  import opened Pmap
  import opened ScPages
  import opened Env
  import opened Flexsc

  /** A handler's outcome and the kernel state it leaves. */
  datatype Trans = Trans(ret: SysRet, k: Kernel)

  /** No handler switches the running environment or forgets an id. */
  predicate Framed(k: Kernel, k': Kernel) {
    k'.cur == k.cur && k.envs.Keys <= k'.envs.Keys
  }

  /** Every environment except those in `ids` is untouched, and so are the
      allocator, the id list and the syscall-page pool. */
  predicate OnlyEnvsChanged(k: Kernel, k': Kernel, ids: set<EnvId>) {
    && k'.cur == k.cur && k'.envs.Keys == k.envs.Keys + ids
    && (forall x :: x in k.envs && x !in ids ==> k'.envs[x] == k.envs[x])
    && k'.phys == k.phys && k'.envFree == k.envFree
    && k'.scpool == k.scpool && k'.scFrames == k.scFrames
  }

  /** As OnlyEnvsChanged for one environment, except that physical memory may
      have been consumed by page-table allocation. */
  predicate OnlySpaceOf(k: Kernel, k': Kernel, id: EnvId) {
    && id in k.envs && k'.cur == k.cur && k'.envs.Keys == k.envs.Keys
    && k'.envs[id] == k.envs[id].(space := k'.envs[id].space)
    && (forall x :: x in k.envs && x != id ==> k'.envs[x] == k.envs[x])
    && k'.envFree == k.envFree && k'.scpool == k.scpool && k'.scFrames == k.scFrames
  }

  /** The address-range test of the memory handlers: `va >= UTOP || va & 0xFFF` rejects. */
  predicate UserVa(va: nat) {
    va < UTOP && Aligned(va)
  }

  // ---------------------------------------------------------------------
  // Environment control

  /** sys_getenvid: a FlexSC worker reports its partner's id, anything else
      its own; a worker without a partner dereferences NULL. */
  function SysGetenvid(k: Kernel): (r: Trans)
    requires CurValid(k)
    ensures r.k == k
    ensures Cur(k).etype != Flex ==> r.ret == Ok(Cur(k).id)
    ensures Cur(k).etype == Flex ==>
      r.ret == (if Cur(k).link.Some? then Ok(Cur(k).link.value) else Panicked)
  {
    var c := Cur(k);
    if c.etype == Flex then
      match c.link
      case None => Trans(Panicked, k)
      case Some(l) => Trans(Ok(l), k)
    else Trans(Ok(c.id), k)
  }

  /** sys_env_destroy: resolve the id with the permission check, destroy the
      linked partner first, then the environment itself. Destroying the
      caller hands the CPU away, so when the partner is the caller the
      environment itself is never reached. */
  function SysEnvDestroy(k: Kernel, envid: EnvId): (r: Trans)
    requires CurValid(k)
    ensures Envid2Env(k, envid, true).None? ==> r == Trans(Err(BadEnv), k)
    ensures Framed(k, r.k) && r.k.envs.Keys == k.envs.Keys
    ensures r.k.phys == k.phys && r.k.envFree == k.envFree && r.k.scpool == k.scpool && r.k.scFrames == k.scFrames
    ensures Envid2Env(k, envid, true).Some? ==>
      var id := Envid2Env(k, envid, true).value;
      var link := k.envs[id].link;
      && (link.Some? && link.value in k.envs ==> r.k.envs[link.value].status == Free)
      && (link != Some(k.cur) ==> r.k.envs[id].status == Free)
      && (link == Some(k.cur) && id != k.cur ==> r.k.envs[id] == k.envs[id])
      && (r.ret == if id == k.cur || link == Some(k.cur) then Switched else Ok(0))
      && (forall x :: x in k.envs && x != id && Some(x) != link ==> r.k.envs[x] == k.envs[x])
  {
    match Envid2Env(k, envid, true)
    case None => Trans(Err(BadEnv), k)
    case Some(id) =>
      var e := k.envs[id];
      var k1 := if e.link.Some? then EnvDestroy(k, e.link.value) else k;
      if e.link == Some(k.cur) then Trans(Switched, k1)
      else
        var k2 := EnvDestroy(k1, id);
        if id == k.cur then Trans(Switched, k2) else Trans(Ok(0), k2)
  }

  /** sys_exofork: allocate a child of the caller that is not yet runnable
      and whose registers are the caller's except that %eax reads 0. */
  function SysExofork(k: Kernel): (r: Trans)
    requires CurValid(k)
    ensures Framed(k, r.k)
    ensures EnvAlloc(k, Cur(k).id).AllocFailed? ==>
      r == Trans(Err(EnvAlloc(k, Cur(k).id).error), k)
    ensures r.ret.Ok? <==> |k.envFree| > 0 && |k.phys.free| > 0
    ensures r.ret.Ok? ==>
      var child := r.ret.value;
      && child == k.envFree[0] && child in r.k.envs
      && r.k.envs[child].status == NotRunnable
      && r.k.envs[child].tf == Cur(k).tf.(eax := 0)
      && r.k.envs[child].parent == Cur(k).id
      && r.k.envs[child].etype == Normal
      && r.k.envs[child].space == EmptySpace
      && (forall x :: x in k.envs && x != child ==> r.k.envs[x] == k.envs[x])
    ensures r.ret.Ok? ==>
      var child := r.ret.value;
      && r.k.envs[child] == NewEnv(child, Cur(k).id).(status := NotRunnable, tf := Cur(k).tf.(eax := 0))
      && r.k.envFree == k.envFree[1..]
      && r.k.phys.free == k.phys.free[1..] && r.k.phys.used == k.phys.used + {k.phys.free[0]}
      && r.k.scpool == k.scpool && r.k.scFrames == k.scFrames
  {
    var c := Cur(k);
    match EnvAlloc(k, c.id)
    case AllocFailed(e) => Trans(Err(e), k)
    case Allocated(k1, id) =>
      var child := k1.envs[id].(status := NotRunnable, tf := c.tf.(eax := 0));
      Trans(Ok(id), SetEnv(k1, id, child))
  }

  /** The statuses sys_env_set_status accepts. */
  predicate SettableStatus(status: int) {
    status == StatusCode(Runnable) || status == StatusCode(NotRunnable)
  }

  /** sys_env_set_status: reject any status but RUNNABLE and NOT_RUNNABLE
      before resolving the id; on success change that one field only. */
  function SysEnvSetStatus(k: Kernel, envid: EnvId, status: int): (r: Trans)
    requires CurValid(k)
    ensures !SettableStatus(status) ==> r == Trans(Err(Inval), k)
    ensures SettableStatus(status) && Envid2Env(k, envid, true).None? ==> r == Trans(Err(BadEnv), k)
    ensures r.ret.Ok? <==> SettableStatus(status) && Envid2Env(k, envid, true).Some?
    ensures r.ret.Ok? ==>
      var id := Envid2Env(k, envid, true).value;
      && OnlyEnvsChanged(k, r.k, {id})
      && r.ret.value == 0
      && StatusCode(r.k.envs[id].status) == status
      && r.k.envs[id] == k.envs[id].(status := r.k.envs[id].status)
  {
    if !SettableStatus(status) then Trans(Err(Inval), k)
    else match Envid2Env(k, envid, true)
      case None => Trans(Err(BadEnv), k)
      case Some(id) =>
        var s := if status == StatusCode(Runnable) then Runnable else NotRunnable;
        Trans(Ok(0), SetEnv(k, id, k.envs[id].(status := s)))
  }

  /** sys_env_set_pgfault_upcall: record the upcall entry point. */
  function SysEnvSetPgfaultUpcall(k: Kernel, envid: EnvId, func: u32): (r: Trans)
    requires CurValid(k)
    ensures Envid2Env(k, envid, true).None? ==> r == Trans(Err(BadEnv), k)
    ensures r.ret.Ok? <==> Envid2Env(k, envid, true).Some?
    ensures r.ret.Ok? ==>
      var id := Envid2Env(k, envid, true).value;
      && OnlyEnvsChanged(k, r.k, {id})
      && r.ret.value == 0
      && r.k.envs[id] == k.envs[id].(upcall := func)
  {
    match Envid2Env(k, envid, true)
    case None => Trans(Err(BadEnv), k)
    case Some(id) => Trans(Ok(0), SetEnv(k, id, k.envs[id].(upcall := func)))
  }

  /** sys_env_set_priority: reject a priority outside
      [ENV_PR_HIGHEST, ENV_PR_LOWEST] before resolving the id; on success
      change that one field only. */
  function SysEnvSetPriority(k: Kernel, envid: EnvId, priority: int): (r: Trans)
    requires CurValid(k)
    ensures !(PrHighest <= priority <= PrLowest) ==> r == Trans(Err(Inval), k)
    ensures PrHighest <= priority <= PrLowest && Envid2Env(k, envid, true).None? ==>
      r == Trans(Err(BadEnv), k)
    ensures r.ret.Ok? <==> PrHighest <= priority <= PrLowest && Envid2Env(k, envid, true).Some?
    ensures r.ret.Ok? ==>
      var id := Envid2Env(k, envid, true).value;
      && OnlyEnvsChanged(k, r.k, {id})
      && r.ret.value == 0
      && r.k.envs[id] == k.envs[id].(priority := priority)
  {
    if priority < PrHighest || priority > PrLowest then Trans(Err(Inval), k)
    else match Envid2Env(k, envid, true)
      case None => Trans(Err(BadEnv), k)
      case Some(id) => Trans(Ok(0), SetEnv(k, id, k.envs[id].(priority := priority)))
  }

  // ---------------------------------------------------------------------
  // Memory mapping

  /** The checks sys_page_map and sys_ipc_try_send make of the page they
      pass on: it must be page-aligned and mapped by the sender, the
      permissions must pass the coded test, and write access must not be
      asked of a read-only page. True when one of them fails. */
  predicate TransferRejected(sender: AddrSpace, srcva: u32, perm: bv32) {
    || !Aligned(srcva) || !PermOk(perm) || PageLookup(sender, srcva).None?
    || (Writable(perm) && !Writable(PageLookup(sender, srcva).value.perm))
  }

  /** sys_page_alloc: check the address, then the permissions, then the id;
      allocate a page and map it. When the mapping fails the fresh page is
      freed again. */
  function SysPageAlloc(k: Kernel, envid: EnvId, va: u32, perm: bv32): (r: Trans)
    requires CurValid(k)
    ensures !UserVa(va) || !PermOk(perm) ==> r == Trans(Err(Inval), k)
    ensures UserVa(va) && PermOk(perm) && Envid2Env(k, envid, true).None? ==>
      r == Trans(Err(BadEnv), k)
    ensures r.ret.Ok? <==>
      && UserVa(va) && PermOk(perm) && Envid2Env(k, envid, true).Some?
      && (|k.phys.free| >= 2
          || (|k.phys.free| == 1 && Pdx(va) in k.envs[Envid2Env(k, envid, true).value].space.tables))
    ensures r.ret.Ok? ==>
      var id := Envid2Env(k, envid, true).value;
      && OnlySpaceOf(k, r.k, id)
      && r.ret.value == 0
      && PageLookup(r.k.envs[id].space, va) == Some(Pte(k.phys.free[0], Present(perm)))
      && k.phys.free[0] in r.k.phys.used
      && (forall a :: PageBase(a) != va ==>
            PageLookup(r.k.envs[id].space, a) == PageLookup(k.envs[id].space, a))
    ensures r.ret.Ok? ==>
      var id := Envid2Env(k, envid, true).value;
      if Pdx(va) in k.envs[id].space.tables then
        r.k.phys == Phys(k.phys.free[1..], k.phys.used + {k.phys.free[0]})
      else
        r.k.phys == Phys(k.phys.free[2..], k.phys.used + {k.phys.free[0], k.phys.free[1]})
    ensures UserVa(va) && PermOk(perm) && Envid2Env(k, envid, true).Some? && !r.ret.Ok? ==>
      r.ret == Err(NoMem)
    ensures !r.ret.Ok? ==> r.k.envs == k.envs && r.k.phys.free == k.phys.free
    ensures !r.ret.Ok? ==> r.k.phys.used <= k.phys.used
    ensures Framed(k, r.k) && r.k.envFree == k.envFree && r.k.scpool == k.scpool
  {
    if va >= UTOP || !Aligned(va) then Trans(Err(Inval), k)
    else if !PermOk(perm) then Trans(Err(Inval), k)
    else match Envid2Env(k, envid, true)
      case None => Trans(Err(BadEnv), k)
      case Some(id) =>
        match PageAlloc(k.phys)
        case None => Trans(Err(NoMem), k)
        case Some((pp, m1)) =>
          match PageInsert(m1, k.envs[id].space, va, pp, perm)
          case InsertNoMem => Trans(Err(NoMem), k.(phys := PageFree(m1, pp)))
          case Inserted(m2, s) =>
            InsertLookup(m1, k.envs[id].space, va, pp, perm);
            Trans(Ok(0), SetEnv(k.(phys := m2), id, k.envs[id].(space := s)))
  }

  /** A failed sys_page_alloc leaves the whole kernel state as it found it:
      in particular the page it allocated is back on the free list. */
  lemma PageAllocFailureLeavesNoTrace(k: Kernel, envid: EnvId, va: u32, perm: bv32)
    requires CurValid(k) && PhysWf(k.phys)
    ensures !SysPageAlloc(k, envid, va, perm).ret.Ok? ==> SysPageAlloc(k, envid, va, perm).k == k
  {
  }

  /** sys_page_map once both ids have resolved to `src` and `dst`: check
      both addresses, that the source is mapped, the permissions, and that
      write access is not granted to a read-only page; then map the
      source's page at `dstva`. */
  function PageMapResolved(k: Kernel, src: EnvId, srcva: u32, dst: EnvId, dstva: u32, perm: bv32): (r: Trans)
    requires src in k.envs && dst in k.envs
    ensures !UserVa(srcva) || !UserVa(dstva) ==> r == Trans(Err(Inval), k)
    ensures !r.ret.Ok? ==> r.k == k
    ensures !r.ret.Ok? ==>
      r.ret == (if UserVa(srcva) && UserVa(dstva) && !TransferRejected(k.envs[src].space, srcva, perm)
                then Err(NoMem) else Err(Inval))
    ensures r.ret.Ok? <==>
      && UserVa(srcva) && UserVa(dstva)
      && PageLookup(k.envs[src].space, srcva).Some? && PermOk(perm)
      && (Writable(perm) ==> Writable(PageLookup(k.envs[src].space, srcva).value.perm))
      && (Pdx(dstva) in k.envs[dst].space.tables || |k.phys.free| > 0)
    ensures r.ret.Ok? ==>
      && OnlySpaceOf(k, r.k, dst)
      && r.ret.value == 0
      && PageLookup(r.k.envs[dst].space, dstva)
         == Some(Pte(PageLookup(k.envs[src].space, srcva).value.page, Present(perm)))
      && (forall a :: PageBase(a) != dstva ==>
            PageLookup(r.k.envs[dst].space, a) == PageLookup(k.envs[dst].space, a))
    ensures r.ret.Ok? ==>
      if Pdx(dstva) in k.envs[dst].space.tables then r.k.phys == k.phys
      else r.k.phys == Phys(k.phys.free[1..], k.phys.used + {k.phys.free[0]})
  {
    if srcva >= UTOP || !Aligned(srcva) || dstva >= UTOP || !Aligned(dstva) then Trans(Err(Inval), k)
    else match PageLookup(k.envs[src].space, srcva)
      case None => Trans(Err(Inval), k)
      case Some(pte) =>
        if !PermOk(perm) then Trans(Err(Inval), k)
        else if Writable(perm) && !Writable(pte.perm) then Trans(Err(Inval), k)
        else match PageInsert(k.phys, k.envs[dst].space, dstva, pte.page, perm)
          case InsertNoMem => Trans(Err(NoMem), k)
          case Inserted(m, s) =>
            InsertLookup(k.phys, k.envs[dst].space, dstva, pte.page, perm);
            Trans(Ok(0), SetEnv(k.(phys := m), dst, k.envs[dst].(space := s)))
  }

  /** sys_page_map: resolve both ids, with the permission check, before any
      address is looked at, so E_BAD_ENV takes precedence over a bad
      address; then map as PageMapResolved. */
  function SysPageMap(k: Kernel, srcenvid: EnvId, srcva: u32, dstenvid: EnvId, dstva: u32, perm: bv32): (r: Trans)
    requires CurValid(k)
    ensures Envid2Env(k, srcenvid, true).None? || Envid2Env(k, dstenvid, true).None? ==>
      r == Trans(Err(BadEnv), k)
    ensures !r.ret.Ok? ==> r.k == k
    ensures Envid2Env(k, srcenvid, true).Some? && Envid2Env(k, dstenvid, true).Some? ==>
      r == PageMapResolved(k, Envid2Env(k, srcenvid, true).value, srcva,
                           Envid2Env(k, dstenvid, true).value, dstva, perm)
  {
    match Envid2Env(k, srcenvid, true)
    case None => Trans(Err(BadEnv), k)
    case Some(src) =>
      match Envid2Env(k, dstenvid, true)
      case None => Trans(Err(BadEnv), k)
      case Some(dst) => PageMapResolved(k, src, srcva, dst, dstva, perm)
  }

  /** sys_page_unmap: check the address, then the id, then remove whatever
      is mapped there; an unmapped address is not an error. */
  function SysPageUnmap(k: Kernel, envid: EnvId, va: u32): (r: Trans)
    requires CurValid(k)
    ensures !UserVa(va) ==> r == Trans(Err(Inval), k)
    ensures UserVa(va) && Envid2Env(k, envid, true).None? ==> r == Trans(Err(BadEnv), k)
    ensures r.ret.Ok? <==> UserVa(va) && Envid2Env(k, envid, true).Some?
    ensures !r.ret.Ok? ==> r.k == k
    ensures r.ret.Ok? ==>
      var id := Envid2Env(k, envid, true).value;
      && OnlySpaceOf(k, r.k, id)
      && r.ret.value == 0
      && PageLookup(r.k.envs[id].space, va).None?
      && (forall a :: PageBase(a) != va ==>
            PageLookup(r.k.envs[id].space, a) == PageLookup(k.envs[id].space, a))
      && r.k.phys == k.phys
  {
    if va >= UTOP || !Aligned(va) then Trans(Err(Inval), k)
    else match Envid2Env(k, envid, true)
      case None => Trans(Err(BadEnv), k)
      case Some(id) => Trans(Ok(0), SetEnv(k, id, k.envs[id].(space := PageRemove(k.envs[id].space, va))))
  }

  /** Unmapping the same address twice gives the same result and state as
      unmapping it once. */
  lemma UnmapIdempotent(k: Kernel, envid: EnvId, va: u32)
    requires CurValid(k)
    ensures var once := SysPageUnmap(k, envid, va);
      CurValid(once.k) && SysPageUnmap(once.k, envid, va) == once
  {
    var once := SysPageUnmap(k, envid, va);
    if once.ret.Ok? {
      var id := Envid2Env(k, envid, true).value;
      assert Envid2Env(once.k, envid, true) == Some(id);
      PageRemoveIdempotent(k.envs[id].space, va);
    }
  }

  /** A page allocated at `va`, then unmapped twice: both unmaps succeed and
      nothing is left mapped at `va`. */
  lemma AllocThenUnmapTwice(k: Kernel, envid: EnvId, va: u32, perm: bv32)
    requires CurValid(k)
    requires SysPageAlloc(k, envid, va, perm).ret.Ok?
    ensures var a := SysPageAlloc(k, envid, va, perm);
      var u1 := SysPageUnmap(a.k, envid, va);
      var u2 := SysPageUnmap(u1.k, envid, va);
      var id := Envid2Env(k, envid, true).value;
      && u1.ret == Ok(0) && u2.ret == Ok(0) && u2.k == u1.k
      && id in u2.k.envs && PageLookup(u2.k.envs[id].space, va).None?
  {
    var a := SysPageAlloc(k, envid, va, perm);
    var id := Envid2Env(k, envid, true).value;
    assert Envid2Env(a.k, envid, true) == Some(id);
    UnmapIdempotent(a.k, envid, va);
  }

  // ---------------------------------------------------------------------
  // IPC

  /** The target's fields after the point of no return in sys_ipc_try_send:
      receiving cleared, sender and value recorded, no page yet. */
  function Delivered(e: Env, from: EnvId, value: u32): Env {
    e.(ipcRecving := false, ipcFrom := from, ipcValue := value, ipcPerm := 0)
  }

  /** Does this send carry a page? Both sides must name an address below UTOP. */
  predicate Transfers(target: Env, srcva: u32) {
    srcva < UTOP && target.ipcDstva < UTOP
  }

  /** sys_ipc_try_send: resolve the target without the permission check; it
      must be receiving. The value is delivered (receiving cleared, sender and
      value recorded) before the page transfer is checked, so a send that
      then fails with E_INVAL or E_NO_MEM has still consumed the receive; the
      target is made runnable only on success. */
  function SysIpcTrySend(k: Kernel, envid: EnvId, value: u32, srcva: u32, perm: bv32): (r: Trans)
    requires CurValid(k)
    ensures Envid2Env(k, envid, false).None? ==> r == Trans(Err(BadEnv), k)
    ensures Envid2Env(k, envid, false).Some? && !k.envs[Envid2Env(k, envid, false).value].ipcRecving ==>
      r == Trans(Err(IpcNotRecv), k)
    ensures Framed(k, r.k) && r.k.envs.Keys == k.envs.Keys
    ensures r.k.envFree == k.envFree && r.k.scpool == k.scpool && r.k.scFrames == k.scFrames
    ensures r.ret.Ok? ==> r.ret == Ok(0)
    ensures Envid2Env(k, envid, false).Some? && k.envs[Envid2Env(k, envid, false).value].ipcRecving ==>
      var id := Envid2Env(k, envid, false).value;
      var e := k.envs[id];
      var d := Delivered(e, Cur(k).id, value);
      && (r.ret.Ok? <==>
           !Transfers(e, srcva)
           || (!TransferRejected(Cur(k).space, srcva, perm)
               && (Pdx(e.ipcDstva) in e.space.tables || |k.phys.free| > 0)))
      && (!r.ret.Ok? ==>
           && r.ret == (if TransferRejected(Cur(k).space, srcva, perm) then Err(Inval) else Err(NoMem))
           && r.k == SetEnv(k, id, d))
      && (r.ret.Ok? && !Transfers(e, srcva) ==> r.k == SetEnv(k, id, d.(status := Runnable)))
      && (r.ret.Ok? && Transfers(e, srcva) ==>
           && r.k.envs[id] == d.(status := Runnable, ipcPerm := perm, space := r.k.envs[id].space)
           && PageLookup(r.k.envs[id].space, e.ipcDstva)
              == Some(Pte(PageLookup(Cur(k).space, srcva).value.page, Present(perm)))
           && (forall a :: PageBase(a) != PageBase(e.ipcDstva) ==>
                 PageLookup(r.k.envs[id].space, a) == PageLookup(e.space, a))
           && (forall x :: x in k.envs && x != id ==> r.k.envs[x] == k.envs[x]))
    ensures Envid2Env(k, envid, false).Some? && k.envs[Envid2Env(k, envid, false).value].ipcRecving ==>
      var id := Envid2Env(k, envid, false).value;
      var e := k.envs[id];
      r.ret.Ok? && Transfers(e, srcva) ==>
        if Pdx(e.ipcDstva) in e.space.tables then r.k.phys == k.phys
        else r.k.phys == Phys(k.phys.free[1..], k.phys.used + {k.phys.free[0]})
  {
    match Envid2Env(k, envid, false)
    case None => Trans(Err(BadEnv), k)
    case Some(id) =>
      var e := k.envs[id];
      if !e.ipcRecving then Trans(Err(IpcNotRecv), k)
      else
        var d := Delivered(e, Cur(k).id, value);
        var k1 := SetEnv(k, id, d);
        if srcva < UTOP && d.ipcDstva < UTOP then
          if !Aligned(srcva) then Trans(Err(Inval), k1)
          else if !PermOk(perm) then Trans(Err(Inval), k1)
          else match PageLookup(Cur(k1).space, srcva)
            case None => Trans(Err(Inval), k1)
            case Some(pte) =>
              if Writable(perm) && !Writable(pte.perm) then Trans(Err(Inval), k1)
              else match PageInsert(k1.phys, d.space, d.ipcDstva, pte.page, perm)
                case InsertNoMem => Trans(Err(NoMem), k1)
                case Inserted(m, s) =>
                  InsertLookup(k1.phys, d.space, d.ipcDstva, pte.page, perm);
                  Trans(Ok(0), SetEnv(k1.(phys := m), id, d.(space := s, ipcPerm := perm, status := Runnable)))
        else Trans(Ok(0), SetEnv(k1, id, d.(status := Runnable)))
  }

  /** sys_ipc_recv. A FlexSC worker parks its partner instead of itself and
      returns E_BLOCKED. Otherwise the caller is marked receiving before
      `dstva` is checked, so a misaligned `dstva` below UTOP returns E_INVAL
      with the caller left receiving; `dstva` is recorded only when below
      UTOP (a larger one leaves the previous value in place); the caller is
      made NOT_RUNNABLE with a saved %eax of 0 and gives up the CPU. */
  function SysIpcRecv(k: Kernel, dstva: u32): (r: Trans)
    requires CurValid(k)
    ensures Framed(k, r.k) && r.k.envs.Keys == k.envs.Keys
    ensures r.k.phys == k.phys && r.k.envFree == k.envFree && r.k.scpool == k.scpool && r.k.scFrames == k.scFrames
    ensures Cur(k).etype == Flex && (Cur(k).link.None? || Cur(k).link.value !in k.envs) ==>
      r == Trans(Panicked, k)
    ensures Cur(k).etype == Flex && Cur(k).link.Some? && Cur(k).link.value in k.envs ==>
      var l := Cur(k).link.value;
      && r.ret == Err(Blocked)
      && r.k.envs[l] == k.envs[l].(ipcRecving := true, status := NotRunnable)
      && (forall x :: x in k.envs && x != l ==> r.k.envs[x] == k.envs[x])
    ensures Cur(k).etype != Flex ==>
      && r.k.envs[k.cur].ipcRecving
      && (forall x :: x in k.envs && x != k.cur ==> r.k.envs[x] == k.envs[x])
    ensures Cur(k).etype != Flex && dstva < UTOP && !Aligned(dstva) ==>
      r.ret == Err(Inval) && r.k.envs[k.cur] == Cur(k).(ipcRecving := true)
    ensures Cur(k).etype != Flex && (dstva >= UTOP || Aligned(dstva)) ==>
      && r.ret == Switched
      && r.k.envs[k.cur]
         == Cur(k).(ipcRecving := true, ipcDstva := if dstva < UTOP then dstva else Cur(k).ipcDstva,
                    tf := Cur(k).tf.(eax := 0), status := NotRunnable)
  {
    var c := Cur(k);
    if c.etype == Flex then
      match c.link
      case None => Trans(Panicked, k)
      case Some(l) =>
        if l !in k.envs then Trans(Panicked, k)
        else Trans(Err(Blocked), SetEnv(k, l, k.envs[l].(ipcRecving := true, status := NotRunnable)))
    else
      var c1 := c.(ipcRecving := true);
      if dstva < UTOP && !Aligned(dstva) then Trans(Err(Inval), SetEnv(k, k.cur, c1))
      else
        var c2 := if dstva < UTOP then c1.(ipcDstva := dstva) else c1;
        Trans(Switched, SetEnv(k, k.cur, c2.(tf := c2.tf.(eax := 0), status := NotRunnable)))
  }

  // ---------------------------------------------------------------------
  // FlexSC

  /** The permissions a syscall page is mapped with in the registering process. */
  const ScPagePerm: bv32 := PTE_W | PTE_U | PTE_P

  /** The bookkeeping at the end of flexsc_register: both environments
      record the syscall page, and each links to the other. */
  function LinkPartners(k: Kernel, w: EnvId, slot: nat): (r: Kernel)
    requires CurValid(k) && w in k.envs
    ensures Framed(k, r) && r.envs.Keys == k.envs.Keys
    ensures r.phys == k.phys && r.envFree == k.envFree && r.scpool == k.scpool && r.scFrames == k.scFrames
    ensures w != k.cur ==>
      && r.envs[k.cur] == Cur(k).(scpage := Some(slot), link := Some(w))
      && r.envs[w] == k.envs[w].(scpage := Some(slot), link := Some(k.cur))
      && (forall x :: x in k.envs && x != w && x != k.cur ==> r.envs[x] == k.envs[x])
  {
    var k1 := SetEnv(k, w, k.envs[w].(scpage := Some(slot)));
    var k2 := SetEnv(k1, k.cur, k1.envs[k.cur].(scpage := Some(slot), link := Some(w)));
    SetEnv(k2, w, k2.envs[w].(link := Some(k.cur)))
  }

  /** The tail of flexsc_register, once the syscall page from pool slot
      `slot` is mapped: spawn the worker (a failure is a kernel panic) and
      link it with the caller. */
  function SpawnAndLink(k: Kernel, slot: nat): (r: Trans)
    requires CurValid(k)
    ensures Framed(k, r.k) && r.k.scpool == k.scpool && r.k.scFrames == k.scFrames
    ensures r.ret == Panicked || r.ret == Ok(0)
    ensures r.ret.Ok? <==>
      && |k.envFree| > 0
      && (forall q :: 0 <= q < SpawnPages ==> Mapped(Cur(k).space, q))
      && |k.phys.free| >= SpawnMemory
    ensures r.ret.Ok? ==> |k.envFree| > 0 && k.envFree[0] in r.k.envs
    ensures r.ret.Ok? && k.envFree[0] != k.cur ==>
      var w := k.envFree[0];
      && r.k.envs.Keys == k.envs.Keys + {w}
      && r.k.envs[k.cur] == Cur(k).(scpage := Some(slot), link := Some(w))
      && r.k.envs[w] == WorkerRecord(w, Cur(k), r.k.envs[w].space).(scpage := Some(slot), link := Some(k.cur))
      && WorkerSpace(Cur(k).space, r.k.envs[w].space, k.phys.free[SpawnMemory - 1])
      && (forall x :: x in k.envs && x != k.cur && x != w ==> r.k.envs[x] == k.envs[x])
      && r.k.envFree == k.envFree[1..]
      && r.k.phys == Consumed(k.phys, SpawnMemory)
  {
    match ScthreadSpawn(k)
    case SpawnFailed(k1, _) => Trans(Panicked, k1)
    case Spawned(k1, w) => Trans(Ok(0), LinkPartners(k1, w, slot))
  }

  /** The middle of flexsc_register, once pool slot `slot` with kernel page
      `frame` has been taken: map the page at `va` in the caller (freeing it
      on E_NO_MEM), then spawn and link the worker. `va` is already mapped,
      since the buffer check passed. */
  function MapAndSpawn(k: Kernel, va: u32, slot: nat, frame: PageId): (r: Trans)
    requires CurValid(k) && PageLookup(Cur(k).space, va).Some?
    ensures Framed(k, r.k) && r.k.scpool == k.scpool && r.k.scFrames == k.scFrames
    ensures Pdx(va) !in Cur(k).space.tables && |k.phys.free| == 0 ==>
      r == Trans(Err(NoMem), k.(phys := PageFree(k.phys, frame)))
    ensures r.ret.Ok? <==>
      && |k.envFree| > 0
      && (forall q :: 0 <= q < SpawnPages ==> Mapped(Cur(k).space, q))
      && |k.phys.free| >= SpawnMemory + (if Pdx(va) in Cur(k).space.tables then 0 else 1)
    ensures r.ret.Ok? ==> r.ret.value == 0 && |k.envFree| > 0 && k.envFree[0] in r.k.envs
  {
    var c := Cur(k);
    match PageInsert(k.phys, c.space, va, frame, ScPagePerm)
    case InsertNoMem => Trans(Err(NoMem), k.(phys := PageFree(k.phys, frame)))
    case Inserted(m, s) =>
      InsertLookup(k.phys, c.space, va, frame, ScPagePerm);
      RemapKeepsMapped(c.space, s, va);
      SpawnAndLink(SetEnv(k.(phys := m), k.cur, c.(space := s)), slot)
  }

  /** A successful MapAndSpawn adds exactly one environment, the worker. */
  lemma MapAndSpawnKeys(k: Kernel, va: u32, slot: nat, frame: PageId)
    requires CurValid(k) && PageLookup(Cur(k).space, va).Some?
    ensures var r := MapAndSpawn(k, va, slot, frame);
      r.ret.Ok? && k.envFree[0] != k.cur ==> r.k.envs.Keys == k.envs.Keys + {k.envFree[0]}
  {
    var c := Cur(k);
    match PageInsert(k.phys, c.space, va, frame, ScPagePerm)
    case InsertNoMem =>
    case Inserted(m, s) =>
      var k2 := SetEnv(k.(phys := m), k.cur, c.(space := s));
      assert SpawnAndLink(k2, slot) == MapAndSpawn(k, va, slot, frame);
      assert k2.envs.Keys == k.envs.Keys;
  }

  /** A successful MapAndSpawn changes the caller only in its address space,
      its syscall page and its link. */
  lemma MapAndSpawnCaller(k: Kernel, va: u32, slot: nat, frame: PageId)
    requires CurValid(k) && PageLookup(Cur(k).space, va).Some?
    ensures var r := MapAndSpawn(k, va, slot, frame);
      r.ret.Ok? && k.envFree[0] != k.cur ==>
      var c := r.k.envs[k.cur];
      c == Cur(k).(space := c.space, scpage := Some(slot), link := Some(k.envFree[0]))
  {
    var c := Cur(k);
    match PageInsert(k.phys, c.space, va, frame, ScPagePerm)
    case InsertNoMem =>
    case Inserted(m, s) =>
      var k2 := SetEnv(k.(phys := m), k.cur, c.(space := s));
      var r := SpawnAndLink(k2, slot);
      assert r == MapAndSpawn(k, va, slot, frame);
      if r.ret.Ok? && k.envFree[0] != k.cur {
        assert r.k.envs[k.cur] == Cur(k2).(scpage := Some(slot), link := Some(k.envFree[0]));
      }
  }

  /** In the caller's address space, a successful MapAndSpawn maps the
      syscall page at `va` and changes no other page. */
  lemma MapAndSpawnMapping(k: Kernel, va: u32, slot: nat, frame: PageId)
    requires CurValid(k) && PageLookup(Cur(k).space, va).Some?
    ensures var r := MapAndSpawn(k, va, slot, frame);
      r.ret.Ok? && k.envFree[0] != k.cur ==>
      var c := r.k.envs[k.cur];
      && PageLookup(c.space, va) == Some(Pte(frame, ScPagePerm))
      && (forall a :: PageBase(a) != PageBase(va) ==> PageLookup(c.space, a) == PageLookup(Cur(k).space, a))
  {
    var c := Cur(k);
    match PageInsert(k.phys, c.space, va, frame, ScPagePerm)
    case InsertNoMem =>
    case Inserted(m, s) =>
      var k2 := SetEnv(k.(phys := m), k.cur, c.(space := s));
      var r := SpawnAndLink(k2, slot);
      assert r == MapAndSpawn(k, va, slot, frame);
      if r.ret.Ok? && k.envFree[0] != k.cur {
        assert r.k.envs[k.cur].space == Cur(k2).space == s;
        InsertLookup(k.phys, c.space, va, frame, ScPagePerm);
      }
  }

  /** The worker of a successful MapAndSpawn is a fresh one linked back to
      the caller; everybody else is left alone and one id is consumed. */
  lemma MapAndSpawnWorker(k: Kernel, va: u32, slot: nat, frame: PageId)
    requires CurValid(k) && PageLookup(Cur(k).space, va).Some?
    ensures var r := MapAndSpawn(k, va, slot, frame);
      r.ret.Ok? && k.envFree[0] != k.cur ==>
      var w := k.envFree[0];
      && r.k.envs[w] == WorkerRecord(w, Cur(k), r.k.envs[w].space).(scpage := Some(slot), link := Some(k.cur))
      && (forall x :: x in k.envs && x != k.cur && x != w ==> r.k.envs[x] == k.envs[x])
      && r.k.envFree == k.envFree[1..]
  {
    var c := Cur(k);
    match PageInsert(k.phys, c.space, va, frame, ScPagePerm)
    case InsertNoMem =>
    case Inserted(m, s) =>
      var k2 := SetEnv(k.(phys := m), k.cur, c.(space := s));
      var r := SpawnAndLink(k2, slot);
      assert r == MapAndSpawn(k, va, slot, frame);
      if r.ret.Ok? && k.envFree[0] != k.cur {
        var w := k.envFree[0];
        assert WorkerRecord(w, Cur(k2), r.k.envs[w].space) == WorkerRecord(w, c, r.k.envs[w].space);
      }
  }

  /** A successful MapAndSpawn consumes the page-table page of the mapping,
      if one was missing, then the pages of the spawn. */
  lemma MapAndSpawnMemory(k: Kernel, va: u32, slot: nat, frame: PageId)
    requires CurValid(k) && PageLookup(Cur(k).space, va).Some?
    ensures var r := MapAndSpawn(k, va, slot, frame);
      r.ret.Ok? && k.envFree[0] != k.cur ==>
      r.k.phys == if Pdx(va) in Cur(k).space.tables then Consumed(k.phys, SpawnMemory)
                  else Consumed(k.phys, SpawnMemory + 1)
  {
    var c := Cur(k);
    match PageInsert(k.phys, c.space, va, frame, ScPagePerm)
    case InsertNoMem =>
      assert MapAndSpawn(k, va, slot, frame).ret == Err(NoMem);
    case Inserted(m, s) =>
      var r := SpawnAndLink(SetEnv(k.(phys := m), k.cur, c.(space := s)), slot);
      assert r == MapAndSpawn(k, va, slot, frame);
      if r.ret.Ok? && k.envFree[0] != k.cur {
        assert r.k.phys == Consumed(m, SpawnMemory);
        if Pdx(va) !in c.space.tables {
          ConsumedSmall(k.phys);
          ConsumedTwice(k.phys, 1, SpawnMemory);
        }
      }
  }

  /** The worker of a successful MapAndSpawn is built from the caller's
      address space with the syscall page mapped; its exception stack is the
      last page the spawn took. */
  lemma MapAndSpawnSpace(k: Kernel, va: u32, slot: nat, frame: PageId)
    requires CurValid(k) && PageLookup(Cur(k).space, va).Some?
    ensures var r := MapAndSpawn(k, va, slot, frame);
      r.ret.Ok? && k.envFree[0] != k.cur ==>
      var xstack := if Pdx(va) in Cur(k).space.tables then k.phys.free[SpawnMemory - 1] else k.phys.free[SpawnMemory];
      WorkerSpace(r.k.envs[k.cur].space, r.k.envs[k.envFree[0]].space, xstack)
  {
    var c := Cur(k);
    match PageInsert(k.phys, c.space, va, frame, ScPagePerm)
    case InsertNoMem =>
    case Inserted(m, s) =>
      var k2 := SetEnv(k.(phys := m), k.cur, c.(space := s));
      var r := SpawnAndLink(k2, slot);
      assert r == MapAndSpawn(k, va, slot, frame);
      if r.ret.Ok? && k.envFree[0] != k.cur {
        assert Cur(k2).space == s == r.k.envs[k.cur].space;
      }
  }

  /** flexsc_register: check the caller's buffer (destroying the caller if it
      is not a writable user page), take a syscall page from the pool
      (panicking when it is empty), map it at `va`, spawn a worker (panicking
      on failure), record the page in both and link the two symmetrically.
      On success the caller changes only in its mapping at `va`, its syscall
      page and its link; the worker is a fresh one; nobody else changes; one
      id and the pages of the mapping and the spawn are consumed. */
  function FlexscRegister(k: Kernel, va: u32): (r: Trans)
    requires CurValid(k)
    ensures Framed(k, r.k) && r.k.scFrames == k.scFrames
    ensures !UserPageRangeOk(Cur(k).space, va, ScPagePerm) ==>
      r.ret == Switched && r.k == EnvDestroy(k, k.cur)
    ensures UserPageRangeOk(Cur(k).space, va, ScPagePerm) && k.scpool.next >= k.scpool.capacity ==>
      r == Trans(Panicked, k)
    ensures r.k.scpool.capacity == k.scpool.capacity
    ensures k.scpool.next <= k.scpool.capacity ==> r.k.scpool.next <= r.k.scpool.capacity
    ensures UserPageRangeOk(Cur(k).space, va, ScPagePerm) && k.scpool.next < k.scpool.capacity
            && k.scpool.next !in k.scFrames ==>
      r == Trans(Err(Inval), k.(scpool := k.scpool.(next := k.scpool.next + 1)))
    ensures UserPageRangeOk(Cur(k).space, va, ScPagePerm) && k.scpool.next < k.scpool.capacity
            && k.scpool.next in k.scFrames && Pdx(va) !in Cur(k).space.tables && |k.phys.free| == 0 ==>
      var frame := k.scFrames[k.scpool.next];
      r == Trans(Err(NoMem), k.(scpool := k.scpool.(next := k.scpool.next + 1),
                                phys := Phys([frame], k.phys.used - {frame})))
    ensures r.ret.Ok? <==>
      && UserPageRangeOk(Cur(k).space, va, ScPagePerm)
      && k.scpool.next < k.scpool.capacity && k.scpool.next in k.scFrames
      && |k.envFree| > 0
      && (forall q :: 0 <= q < SpawnPages ==> Mapped(Cur(k).space, q))
      && |k.phys.free| >= SpawnMemory + (if Pdx(va) in Cur(k).space.tables then 0 else 1)
    ensures r.ret.Ok? ==>
      && r.ret.value == 0
      && |k.envFree| > 0 && k.envFree[0] in r.k.envs && k.scpool.next in k.scFrames
      && r.k.scpool == k.scpool.(next := k.scpool.next + 1)
    ensures r.ret.Ok? && k.envFree[0] != k.cur ==>
      var slot := k.scpool.next;
      var w := k.envFree[0];
      var c := r.k.envs[k.cur];
      && r.k.envs.Keys == k.envs.Keys + {w}
      && c == Cur(k).(space := c.space, scpage := Some(slot), link := Some(w))
      && PageLookup(c.space, va) == Some(Pte(k.scFrames[slot], ScPagePerm))
      && (forall a :: PageBase(a) != PageBase(va) ==> PageLookup(c.space, a) == PageLookup(Cur(k).space, a))
      && r.k.envs[w] == WorkerRecord(w, Cur(k), r.k.envs[w].space).(scpage := Some(slot), link := Some(k.cur))
      && (forall x :: x in k.envs && x != k.cur && x != w ==> r.k.envs[x] == k.envs[x])
      && r.k.envFree == k.envFree[1..]
    ensures r.ret.Ok? && k.envFree[0] != k.cur ==>
      && r.k.phys == (if Pdx(va) in Cur(k).space.tables then Consumed(k.phys, SpawnMemory)
                      else Consumed(k.phys, SpawnMemory + 1))
      && WorkerSpace(r.k.envs[k.cur].space, r.k.envs[k.envFree[0]].space,
                     if Pdx(va) in Cur(k).space.tables then k.phys.free[SpawnMemory - 1] else k.phys.free[SpawnMemory])
  {
    var c := Cur(k);
    if !UserPageRangeOk(c.space, va, ScPagePerm) then Trans(Switched, EnvDestroy(k, k.cur))
    else
      var a := ScpageAlloc(k.scpool);
      match a.slot
      case None => Trans(Panicked, k)
      case Some(slot) =>
        var k1 := k.(scpool := a.pool);
        if slot !in k.scFrames then Trans(Err(Inval), k1)
        else
          PageBaseOf(PageBase(va), PageBase(va));
          MapAndSpawnKeys(k1, va, slot, k.scFrames[slot]);
          MapAndSpawnCaller(k1, va, slot, k.scFrames[slot]);
          MapAndSpawnMapping(k1, va, slot, k.scFrames[slot]);
          MapAndSpawnWorker(k1, va, slot, k.scFrames[slot]);
          MapAndSpawnMemory(k1, va, slot, k.scFrames[slot]);
          MapAndSpawnSpace(k1, va, slot, k.scFrames[slot]);
          MapAndSpawn(k1, va, slot, k.scFrames[slot])
  }

  /** flexsc_wait: wake the partner worker and put the caller to sleep,
      giving up the CPU; without a partner the NULL link is dereferenced. */
  function FlexscWait(k: Kernel): (r: Trans)
    requires CurValid(k)
    ensures Framed(k, r.k) && r.k.envs.Keys == k.envs.Keys
    ensures Cur(k).link.None? || Cur(k).link.value !in k.envs ==> r == Trans(Panicked, k)
    ensures Cur(k).link.Some? && Cur(k).link.value in k.envs ==>
      var l := Cur(k).link.value;
      && r.ret == Switched
      && r.k.envs[k.cur] == Cur(k).(status := NotRunnable)
      && (l != k.cur ==> r.k.envs[l] == k.envs[l].(status := Runnable))
      && OnlyEnvsChanged(k, r.k, {k.cur, l})
  {
    var c := Cur(k);
    match c.link
    case None => Trans(Panicked, k)
    case Some(l) =>
      if l !in k.envs then Trans(Panicked, k)
      else
        var k1 := SetEnv(k, l, k.envs[l].(status := Runnable));
        Trans(Switched, SetEnv(k1, k.cur, k1.envs[k.cur].(status := NotRunnable)))
  }

  // ---------------------------------------------------------------------
  // Dispatch

  /** The system calls, in the order of their numbers. */
  datatype Sysno =
    | OpCputs | OpCgetc | OpGetenvid | OpEnvDestroy | OpPageAlloc | OpPageMap
    | OpPageUnmap | OpExofork | OpEnvSetStatus | OpEnvSetTrapframe
    | OpEnvSetPgfaultUpcall | OpYield | OpIpcTrySend | OpIpcRecv | OpTimeMsec
    | OpNetSendPckt | OpNetRecvPckt | OpEnvSetPriority | OpFlexscRegister | OpFlexscWait

  const SysnoTable: seq<Sysno> := [
    OpCputs, OpCgetc, OpGetenvid, OpEnvDestroy, OpPageAlloc, OpPageMap,
    OpPageUnmap, OpExofork, OpEnvSetStatus, OpEnvSetTrapframe,
    OpEnvSetPgfaultUpcall, OpYield, OpIpcTrySend, OpIpcRecv, OpTimeMsec,
    OpNetSendPckt, OpNetRecvPckt, OpEnvSetPriority, OpFlexscRegister, OpFlexscWait]

  /** The number of a system call. */
  function SysnoNumber(op: Sysno): (n: nat)
    ensures n < |SysnoTable| && SysnoTable[n] == op
  {
    match op
    case OpCputs => 0
    case OpCgetc => 1
    case OpGetenvid => 2
    case OpEnvDestroy => 3
    case OpPageAlloc => 4
    case OpPageMap => 5
    case OpPageUnmap => 6
    case OpExofork => 7
    case OpEnvSetStatus => 8
    case OpEnvSetTrapframe => 9
    case OpEnvSetPgfaultUpcall => 10
    case OpYield => 11
    case OpIpcTrySend => 12
    case OpIpcRecv => 13
    case OpTimeMsec => 14
    case OpNetSendPckt => 15
    case OpNetRecvPckt => 16
    case OpEnvSetPriority => 17
    case OpFlexscRegister => 18
    case OpFlexscWait => 19
  }

  /** The system call a number names, if any. */
  function DecodeSysno(no: nat): Option<Sysno> {
    if no < |SysnoTable| then Some(SysnoTable[no]) else None
  }

  /** Numbers and system calls correspond one to one; every other number is
      unknown. */
  lemma {:induction false} SysnoRoundTrip(op: Sysno, no: nat)
    ensures DecodeSysno(SysnoNumber(op)) == Some(op)
    ensures DecodeSysno(no).Some? ==> SysnoNumber(DecodeSysno(no).value) == no
    ensures DecodeSysno(no).None? <==> no >= 20
  {
    if no < |SysnoTable| {
      var n := SysnoNumber(SysnoTable[no]);
      assert SysnoTable[n] == SysnoTable[no];
      // The table lists each system call once.
      assert forall i, j :: 0 <= i < j < |SysnoTable| ==> SysnoTable[i] != SysnoTable[j];
    }
  }

  /** The calls whose handlers do console, clock, network or register-file
      work outside this model. */
  predicate IsDelegated(op: Sysno) {
    op in {OpCputs, OpCgetc, OpEnvSetTrapframe, OpTimeMsec, OpNetSendPckt, OpNetRecvPckt}
  }

  /** The environment-management cases of the dispatcher. */
  predicate IsEnvCall(op: Sysno) {
    op in {OpGetenvid, OpEnvDestroy, OpYield, OpExofork, OpEnvSetStatus, OpEnvSetPgfaultUpcall, OpEnvSetPriority}
  }

  /** The memory cases of the dispatcher. */
  predicate IsMemCall(op: Sysno) {
    op in {OpPageAlloc, OpPageMap, OpPageUnmap}
  }

  /** The IPC cases of the dispatcher. */
  predicate IsIpcCall(op: Sysno) {
    op in {OpIpcTrySend, OpIpcRecv}
  }

  /** The FlexSC cases of the dispatcher. */
  predicate IsFlexCall(op: Sysno) {
    op in {OpFlexscRegister, OpFlexscWait}
  }

  /** Every call number belongs to exactly one group. */
  lemma GroupsPartition(op: Sysno)
    ensures IsDelegated(op) || IsEnvCall(op) || IsMemCall(op) || IsIpcCall(op) || IsFlexCall(op)
    ensures IsDelegated(op) ==> !IsEnvCall(op) && !IsMemCall(op) && !IsIpcCall(op) && !IsFlexCall(op)
    ensures IsEnvCall(op) ==> !IsMemCall(op) && !IsIpcCall(op) && !IsFlexCall(op)
    ensures IsMemCall(op) ==> !IsIpcCall(op) && !IsFlexCall(op)
    ensures IsIpcCall(op) ==> !IsFlexCall(op)
  {
  }

  /** The environment-management cases: getenvid, env_destroy, yield,
      exofork, env_set_status, env_set_pgfault_upcall, env_set_priority. */
  function DispatchEnv(k: Kernel, op: Sysno, a1: u32, a2: u32): (r: Trans)
    requires CurValid(k) && IsEnvCall(op)
    ensures Framed(k, r.k)
    ensures op == OpGetenvid ==> r == SysGetenvid(k)
    ensures op == OpEnvDestroy ==> r == SysEnvDestroy(k, ToInt32(a1))
    ensures op == OpYield ==> r == Trans(Switched, k)
    ensures op == OpExofork ==> r == SysExofork(k)
    ensures op == OpEnvSetStatus ==> r == SysEnvSetStatus(k, ToInt32(a1), ToInt32(a2))
    ensures op == OpEnvSetPgfaultUpcall ==> r == SysEnvSetPgfaultUpcall(k, ToInt32(a1), a2)
    ensures op == OpEnvSetPriority ==> r == SysEnvSetPriority(k, ToInt32(a1), ToInt32(a2))
  {
    if op == OpGetenvid then SysGetenvid(k)
    else if op == OpEnvDestroy then SysEnvDestroy(k, ToInt32(a1))
    else if op == OpYield then Trans(Switched, k)
    else if op == OpExofork then SysExofork(k)
    else if op == OpEnvSetStatus then SysEnvSetStatus(k, ToInt32(a1), ToInt32(a2))
    else if op == OpEnvSetPgfaultUpcall then SysEnvSetPgfaultUpcall(k, ToInt32(a1), a2)
    else SysEnvSetPriority(k, ToInt32(a1), ToInt32(a2))
  }

  /** The memory cases: page_alloc, page_map, page_unmap. */
  function DispatchMem(k: Kernel, op: Sysno, a1: u32, a2: u32, a3: u32, a4: u32, a5: u32): (r: Trans)
    requires CurValid(k) && IsMemCall(op)
    ensures Framed(k, r.k)
    ensures op == OpPageAlloc ==> r == SysPageAlloc(k, ToInt32(a1), a2, a3 as bv32)
    ensures op == OpPageMap ==> r == SysPageMap(k, ToInt32(a1), a2, ToInt32(a3), a4, a5 as bv32)
    ensures op == OpPageUnmap ==> r == SysPageUnmap(k, ToInt32(a1), a2)
  {
    if op == OpPageAlloc then SysPageAlloc(k, ToInt32(a1), a2, a3 as bv32)
    else if op == OpPageMap then SysPageMap(k, ToInt32(a1), a2, ToInt32(a3), a4, a5 as bv32)
    else SysPageUnmap(k, ToInt32(a1), a2)
  }

  /** The IPC cases: ipc_try_send, ipc_recv. */
  function DispatchIpc(k: Kernel, op: Sysno, a1: u32, a2: u32, a3: u32, a4: u32): (r: Trans)
    requires CurValid(k) && IsIpcCall(op)
    ensures Framed(k, r.k) && r.k.envs.Keys == k.envs.Keys
    ensures op == OpIpcTrySend ==> r == SysIpcTrySend(k, ToInt32(a1), a2, a3, a4 as bv32)
    ensures op == OpIpcRecv ==> r == SysIpcRecv(k, a1)
  {
    if op == OpIpcTrySend then SysIpcTrySend(k, ToInt32(a1), a2, a3, a4 as bv32)
    else SysIpcRecv(k, a1)
  }

  /** The FlexSC cases: flexsc_register, flexsc_wait. */
  function DispatchFlex(k: Kernel, op: Sysno, a1: u32): (r: Trans)
    requires CurValid(k) && IsFlexCall(op)
    ensures Framed(k, r.k)
    ensures op == OpFlexscRegister ==> r == FlexscRegister(k, a1)
    ensures op == OpFlexscWait ==> r == FlexscWait(k)
  {
    if op == OpFlexscRegister then FlexscRegister(k, a1) else FlexscWait(k)
  }

  /** syscall: decode the number and run exactly one handler on the
      arguments, cast as the C prototypes cast them; an unknown number is
      E_INVAL and changes nothing. The cases are grouped as above. */
  function Dispatch(k: Kernel, no: u32, a1: u32, a2: u32, a3: u32, a4: u32, a5: u32): (r: Trans)
    requires CurValid(k)
    ensures Framed(k, r.k)
    ensures DecodeSysno(no).None? ==> r == Trans(Err(Inval), k)
    ensures DecodeSysno(no) == Some(OpGetenvid) ==> r == SysGetenvid(k)
    ensures DecodeSysno(no) == Some(OpEnvDestroy) ==> r == SysEnvDestroy(k, ToInt32(a1))
    ensures DecodeSysno(no) == Some(OpYield) ==> r == Trans(Switched, k)
    ensures DecodeSysno(no) == Some(OpExofork) ==> r == SysExofork(k)
    ensures DecodeSysno(no) == Some(OpEnvSetStatus) ==> r == SysEnvSetStatus(k, ToInt32(a1), ToInt32(a2))
    ensures DecodeSysno(no) == Some(OpEnvSetPgfaultUpcall) ==>
      r == SysEnvSetPgfaultUpcall(k, ToInt32(a1), a2)
    ensures DecodeSysno(no) == Some(OpEnvSetPriority) ==> r == SysEnvSetPriority(k, ToInt32(a1), ToInt32(a2))
    ensures DecodeSysno(no) == Some(OpPageAlloc) ==> r == SysPageAlloc(k, ToInt32(a1), a2, a3 as bv32)
    ensures DecodeSysno(no) == Some(OpPageMap) ==>
      r == SysPageMap(k, ToInt32(a1), a2, ToInt32(a3), a4, a5 as bv32)
    ensures DecodeSysno(no) == Some(OpPageUnmap) ==> r == SysPageUnmap(k, ToInt32(a1), a2)
    ensures DecodeSysno(no) == Some(OpIpcTrySend) ==>
      r == SysIpcTrySend(k, ToInt32(a1), a2, a3, a4 as bv32)
    ensures DecodeSysno(no) == Some(OpIpcRecv) ==> r == SysIpcRecv(k, a1)
    ensures DecodeSysno(no) == Some(OpFlexscRegister) ==> r == FlexscRegister(k, a1)
    ensures DecodeSysno(no) == Some(OpFlexscWait) ==> r == FlexscWait(k)
    ensures DecodeSysno(no).Some? && IsDelegated(DecodeSysno(no).value) ==> r == Trans(Delegated, k)
  {
    match DecodeSysno(no)
    case None => Trans(Err(Inval), k)
    case Some(op) =>
      GroupsPartition(op);
      if IsDelegated(op) then Trans(Delegated, k)
      else if IsEnvCall(op) then DispatchEnv(k, op, a1, a2)
      else if IsMemCall(op) then DispatchMem(k, op, a1, a2, a3, a4, a5)
      else if IsIpcCall(op) then DispatchIpc(k, op, a1, a2, a3, a4)
      else DispatchFlex(k, op, a1)
  }
}

=== FILE: worker.dfy ===
/** The FlexSC worker: one step of scthread_task's polling loop on one
    entry of its syscall page, and one pass over the page. */
module Worker {
  import opened Base
  import opened ScPages
  import opened Env
  import opened Syscall

  /** The worker's kernel state and syscall page after a step, and whether
      the handler it ran returned to it (a handler that switches away or
      panics leaves the entry BUSY). */
  datatype Step = Step(k: Kernel, page: seq<Entry>, returned: bool)

  /** Control comes back from a handler with this outcome. */
  predicate Returns(r: SysRet) {
    !r.Switched? && !r.Panicked?
  }

  /** What a completed visit does to an entry: a SUBMITTED entry becomes DONE
      with its call and arguments kept; any other entry is left alone. */
  predicate Served(before: Entry, after: Entry) {
    if before.status == FscSubmitted then after == before.(status := FscDone, ret := after.ret)
    else after == before
  }

  /** The body of scthread_task's loop on entry `i`: a SUBMITTED entry is
      claimed (BUSY), its call is dispatched, and the result is written back
      with status DONE; any other entry is skipped. */
  function WorkerStep(k: Kernel, page: seq<Entry>, i: nat): (r: Step)
    requires CurValid(k) && i < |page|
    ensures CurValid(r.k) && r.k.cur == k.cur
    ensures |r.page| == |page|
    ensures forall j :: 0 <= j < |page| && j != i ==> r.page[j] == page[j]
    ensures page[i].status != FscSubmitted ==> r == Step(k, page, true)
    ensures page[i].status == FscSubmitted ==>
      var e := page[i];
      var t := Dispatch(k, e.scNum, e.args[0], e.args[1], e.args[2], e.args[3], e.args[4]);
      && r.k == t.k
      && r.returned == Returns(t.ret)
      && r.page[i] == (if Returns(t.ret) then e.(status := FscDone, ret := t.ret) else e.(status := FscBusy))
  {
    var e := page[i];
    if e.status != FscSubmitted then Step(k, page, true)
    else
      var busy := e.(status := FscBusy);
      var t := Dispatch(k, e.scNum, e.args[0], e.args[1], e.args[2], e.args[3], e.args[4]);
      if Returns(t.ret) then Step(t.k, page[i := busy.(status := FscDone, ret := t.ret)], true)
      else Step(t.k, page[i := busy], false)
  }

  /** A step only ever moves entry `i` forward, to BUSY or DONE, and a step
      that returns leaves it served. */
  lemma StepNeverRegresses(k: Kernel, page: seq<Entry>, i: nat)
    requires CurValid(k) && i < |page|
    ensures var r := WorkerStep(k, page, i);
      && (forall j :: 0 <= j < |page| ==> Rank(page[j].status) <= Rank(r.page[j].status))
      && (forall j :: 0 <= j < |page| && r.page[j].status != page[j].status ==>
            j == i && (r.page[j].status == FscBusy || r.page[j].status == FscDone))
      && (r.returned ==> Served(page[i], r.page[i]))
      && (!r.returned ==> r.page[i] == page[i].(status := FscBusy))
  {
  }

  /** A worker serving a getenvid request writes back its partner's id:
      the result the process sees is the id it would get by asking itself. */
  lemma WorkerServesGetenvid(k: Kernel, page: seq<Entry>, i: nat)
    requires CurValid(k) && i < |page|
    requires Cur(k).etype == Flex && Cur(k).link.Some?
    requires page[i].status == FscSubmitted && page[i].scNum == SysnoNumber(OpGetenvid) as u32
    ensures var r := WorkerStep(k, page, i);
      && r.returned && r.k == k
      && r.page[i] == page[i].(status := FscDone, ret := Ok(Cur(k).link.value))
  {
  }

  /** Where a pass ends: the kernel state, the page, and the entry it
      stopped at (|page| when every visited handler returned). */
  datatype PassEnd = PassEnd(k: Kernel, page: seq<Entry>, stop: nat)

  /** The pass from entry `i` on, as a recursion over WorkerStep. */
  function PassFrom(k: Kernel, page: seq<Entry>, i: nat): (r: PassEnd)
    requires CurValid(k) && i <= |page|
    decreases |page| - i
  {
    if i == |page| then PassEnd(k, page, i)
    else
      var s := WorkerStep(k, page, i);
      if s.returned then PassFrom(s.k, s.page, i + 1) else PassEnd(s.k, s.page, i)
  }

  /** One pass of the worker over its syscall page, entry 0 upwards with no
      wrap-around. The pass stops early at an entry whose handler did not
      return (`stop` is that entry, or |page| after a full pass). The kernel
      state is threaded through every handler the pass dispatches, as
      PassFrom states. */
  method WorkerPass(k0: Kernel, page0: seq<Entry>) returns (k: Kernel, page: seq<Entry>, stop: nat)
    requires CurValid(k0)
    ensures CurValid(k) && k.cur == k0.cur
    ensures |page| == |page0| && stop <= |page0|
    ensures forall j :: 0 <= j < stop ==> Served(page0[j], page[j])
    ensures stop < |page0| ==>
      page0[stop].status == FscSubmitted && page[stop] == page0[stop].(status := FscBusy)
    ensures forall j :: stop < j < |page0| ==> page[j] == page0[j]
    ensures forall j :: 0 <= j < |page0| ==> Rank(page0[j].status) <= Rank(page[j].status)
    ensures stop == |page0| ==> forall j :: 0 <= j < |page| ==> page[j].status != FscSubmitted
    ensures PassEnd(k, page, stop) == PassFrom(k0, page0, 0)
  {
    k, page := k0, page0;
    var i := 0;
    while i < |page|
      invariant CurValid(k) && k.cur == k0.cur
      invariant i <= |page| == |page0|
      invariant PassFrom(k, page, i) == PassFrom(k0, page0, 0)
      invariant forall j :: 0 <= j < i ==> Served(page0[j], page[j])
      invariant forall j :: i <= j < |page| ==> page[j] == page0[j]
    {
      var s := WorkerStep(k, page, i);
      k, page := s.k, s.page;
      if !s.returned {
        stop := i;
        PassEndsServed(page0, page, stop);
        return;
      }
      i := i + 1;
    }
    stop := |page|;
    PassEndsServed(page0, page, stop);
  }

  /** The page a pass leaves: served entries before the stop point, BUSY at
      it and untouched after it, so no entry moves backwards, and after a
      full pass none is still SUBMITTED. */
  lemma PassEndsServed(page0: seq<Entry>, page: seq<Entry>, stop: nat)
    requires |page| == |page0| && stop <= |page0|
    requires forall j :: 0 <= j < stop ==> Served(page0[j], page[j])
    requires stop < |page0| ==>
      page0[stop].status == FscSubmitted && page[stop] == page0[stop].(status := FscBusy)
    requires forall j :: stop < j < |page0| ==> page[j] == page0[j]
    ensures forall j :: 0 <= j < |page0| ==> Rank(page0[j].status) <= Rank(page[j].status)
    ensures stop == |page0| ==> forall j :: 0 <= j < |page| ==> page[j].status != FscSubmitted
  {
  }

  /** Entries that are not SUBMITTED are skipped: a pass over them leaves
      the kernel and the page as they were and runs to the end. */
  lemma {:induction false} PassSkipsIdle(k: Kernel, page: seq<Entry>, i: nat)
    requires CurValid(k) && i <= |page|
    requires forall j :: i <= j < |page| ==> page[j].status != FscSubmitted
    ensures PassFrom(k, page, i) == PassEnd(k, page, |page|)
    decreases |page| - i
  {
    if i < |page| {
      PassSkipsIdle(k, page, i + 1);
    }
  }

  /** Idle entries before `i` are passed over without effect. */
  lemma {:induction false} PassReaches(k: Kernel, page: seq<Entry>, j: nat, i: nat)
    requires CurValid(k) && j <= i <= |page|
    requires forall x :: j <= x < i ==> page[x].status != FscSubmitted
    ensures PassFrom(k, page, j) == PassFrom(k, page, i)
    decreases i - j
  {
    if j < i {
      PassReaches(k, page, j + 1, i);
    }
  }

  /** A page holding exactly one request: the pass dispatches it on the
      kernel it was given and ends in the state the handler left. If the
      handler returns, the entry is DONE with its result and the pass runs
      to the end; otherwise the entry is left BUSY and the pass stops there. */
  lemma PassServesOne(k: Kernel, page: seq<Entry>, i: nat)
    requires CurValid(k) && i < |page| && page[i].status == FscSubmitted
    requires forall j :: 0 <= j < |page| && j != i ==> page[j].status != FscSubmitted
    ensures var e := page[i];
      var t := Dispatch(k, e.scNum, e.args[0], e.args[1], e.args[2], e.args[3], e.args[4]);
      PassFrom(k, page, 0) ==
        if Returns(t.ret) then PassEnd(t.k, page[i := e.(status := FscDone, ret := t.ret)], |page|)
        else PassEnd(t.k, page[i := e.(status := FscBusy)], i)
  {
    PassReaches(k, page, 0, i);
    var s := WorkerStep(k, page, i);
    if s.returned {
      PassSkipsIdle(s.k, s.page, i + 1);
    }
  }
}
